=== FILE: README.md ===
# University exam booking — business rules in Dafny

This project models the business-rule layer of a university exam-booking
backend. It covers users (students, professors, admins), courses, exams and
bookings. The database is a value: a `Store` of four tables. Each table holds
its rows in storage order plus an auto-increment counter (`Tables.Table`).
Every service operation is a pure function. It returns either the new store
together with its result, or the error the source raises. An `Error` knows its
HTTP status (400, 401, 403 or 404). An error carries no store, so no failing
path can leave a partial change behind.

Modules follow the source layout:

- `Tables` is the in-memory stand-in for the SQL query primitives. It covers
  `.filter`, `.first()`, `.count()` and `.offset().limit()`. It also covers the
  primary-key `get`/`create`/`update`/`remove` of the repository base class.
- `Models` holds the records, the request payloads, the store and the errors.
- `BookingRepository`, `ExamRepository`, `CourseRepository` and
  `UserRepository` model the query classes.
- `BookingService` is the admission engine, plus cancel, update and delete.
- `ExamService`, `CourseService` and `UserService` are the validators.
- `Deps` is the authorization gate.

The clock is the integer parameter `now`. A decoded bearer token is an
`Option<int>`. Password hashing and verification are the function parameters
`hash` and `verify`.

The model keeps Python's truthiness tests as the source writes them.
`if user_in.student_id:` treats an empty string as "not sent".
`if course_in.professor_id:` treats `0` as "not sent". `Models.GivenText` and
`Models.GivenNumber` state these tests.

The model follows the code on these points:

- An exam dated exactly `now` is admitted. The code rejects only `date < now`.
- Capacity counts confirmed bookings only. "Confirmed count ≤ `max_students`"
  is NOT a system invariant. Admission preserves it
  (`BookingService.CreateBookingKeepsCapacity`). Confirming a booking breaks it
  (`BookingService.ConfirmingCanOverfill`), and so does lowering an exam's
  capacity (`ExamService.LoweringCapacityCanOverfill`).
- `cancel_booking` checks only that the booking exists, not the student or the exam.

## Model

| member | source | states |
|---|---|---|
| Tables.First | app/repositories/course.py:8-9 | `.first()` returns a row that satisfies the filter and has no earlier match; it returns none exactly when no row matches |
| Tables.Filter | app/repositories/booking.py:18 | `.filter(...)` keeps the rows satisfying the predicate, in storage order; a value is in the result exactly when it is stored and matches; the result is empty exactly when no row matches |
| Tables.Window | app/repositories/booking.py:19-20 | `.offset(skip).limit(limit)` returns at most `limit` items; item i is item `skip + i` of its input; the length is `min(limit, n - skip)`, or 0 when `skip ≥ n` |
| Tables.Get | app/services/booking_service.py:14-15 | primary-key lookup returns a stored row with that key, and returns none exactly when no row has it |
| Tables.Insert | app/services/booking_service.py:66 | `create` appends exactly one row holding the given record; its key was unused; key uniqueness is preserved |
| Tables.Replace | app/services/booking_service.py:115 | `update` overwrites exactly the rows with that key; every other row and the row count stay the same; keys stay valid |
| Tables.Remove | app/services/booking_service.py:121 | `remove` keeps exactly the rows whose key differs; keys stay valid |
| BookingRepository.GetByStudentAndExam | app/repositories/booking.py:8-13 | the result matches both ids; it is none exactly when no booking, confirmed or not, links that pair |
| BookingRepository.GetByStudentId | app/repositories/booking.py:15-22 | every result is a stored booking of that student; there are at most `limit` results; the results are the window after `skip` of that student's bookings |
| BookingRepository.GetByExamId | app/repositories/booking.py:24-31 | every result is a stored booking of that exam; there are at most `limit` results; the results are the window after `skip` of that exam's bookings |
| BookingRepository.CountByExamId | app/repositories/booking.py:33-38 | the count is the number of stored bookings for the exam that are confirmed, no others; so it is at most the exam's bookings, and 0 exactly when none of them is confirmed |
| BookingRepository.CountAfterInsert | app/repositories/booking.py:33-38 | storing a booking raises its exam's count by one only if the booking is confirmed; an unconfirmed booking or another exam's booking changes nothing |
| BookingRepository.InsertedPairIsFound | app/repositories/booking.py:8-13 | once a booking is stored, the pair lookup finds it |
| BookingService.CreateBooking | app/services/booking_service.py:12-66 | admission succeeds iff: the user is a student, the exam is active and not before `now`, the pair is unbooked, and confirmed count < `max_students`; success appends one booking with the requested fields and changes nothing else; error order: missing student 404, non-student 400, missing exam 404, inactive 400, past 400, duplicate 400 (even when full), full 400 |
| BookingService.AdmissionTakesSeatIfConfirmed | app/services/booking_service.py:59-66 | a successful admission adds one to an exam's confirmed count exactly when it is that exam and the booking is confirmed |
| BookingService.CreateBookingKeepsCapacity | app/services/booking_service.py:59-66 | if every exam was within capacity before an admission, every exam is within capacity after it |
| BookingService.CreateBookingKeepsUniquePairs | app/services/booking_service.py:49-66 | admission keeps at most one booking per (student, exam) pair |
| BookingService.SecondRequestIsDuplicate | app/services/booking_service.py:49-56 | repeating a successful request fails with the duplicate error |
| BookingService.GetBookingsByStudent | app/services/booking_service.py:77-86 | 404 exactly when no user has the id (the role is not checked); otherwise the student's bookings, windowed |
| BookingService.GetBookingsByExam | app/services/booking_service.py:88-97 | 404 exactly when the exam is missing; otherwise the exam's bookings, windowed |
| BookingService.CountBookingsByExam | app/services/booking_service.py:99-108 | 404 exactly when the exam is missing; otherwise the number of the exam's confirmed bookings |
| BookingService.UpdateBooking | app/services/booking_service.py:110-115 | 404 exactly for an unknown id; otherwise only `confirmed` may change, to the value sent if any; every other booking and table stays as it was |
| BookingService.UpdateBookingKeepsUniquePairs | app/services/booking_service.py:110-115 | an update never creates a duplicate pair |
| BookingService.ConfirmingCanOverfill | app/services/booking_service.py:110-115 | in a legitimate full store, confirming a waiting booking succeeds and leaves its exam over capacity |
| BookingService.DeleteBooking | app/services/booking_service.py:117-121 | 404 exactly for an unknown id; otherwise it returns the stored booking and keeps exactly the rows with other keys |
| BookingService.DeleteBookingKeepsInvariants | app/services/booking_service.py:117-121 | deletion preserves capacity and pair uniqueness |
| BookingService.CancelBooking | app/services/booking_service.py:123-131 | succeeds exactly when some booking links the pair, with no check on the student or the exam; it removes the rows with that booking's key and nothing else; otherwise 404 |
| BookingService.CancelBookingKeepsInvariants | app/services/booking_service.py:123-131 | cancellation preserves capacity and pair uniqueness |
| BookingService.CancelFreesPair | app/services/booking_service.py:123-131 | with unique keys and pairs, the pair is unbooked after a cancellation |
| Deps.GetCurrentUser | app/api/deps.py:15-43 | an undecodable token gives 401; a decoded id with no user gives 401; otherwise the stored user with that id |
| Deps.GetCurrentAdmin | app/api/deps.py:45-51 | succeeds iff the role is ADMIN and returns the caller unchanged; otherwise 403 |
| Deps.GetCurrentProfessor | app/api/deps.py:53-59 | succeeds iff the role is PROFESSOR or ADMIN and returns the caller unchanged; students get 403 |
| Deps.AdminPassesProfessorGate | app/api/deps.py:45-59 | whoever passes the admin gate passes the professor gate, as the same user |
| Deps.RequireAdmin | app/api/deps.py:15-51 | an authentication failure (401) is reported before the role check; success iff the token's user is an admin; any other authenticated user gets 403 (insufficient permissions) |
| Deps.RequireProfessor | app/api/deps.py:15-59 | an authentication failure (401) is reported before the role check; success iff the token's user is not a student; an authenticated student gets 403 (insufficient permissions) |
| Deps.AdminRoutesImplyProfessorRoutes | app/api/deps.py:45-59 | a token that opens the admin routes opens the professor routes too, with the same user |
| ExamRepository.GetByCourseId | app/repositories/exam.py:9-16 | every result is a stored exam of that course; there are at most `limit`; the results are the window of the course's exams |
| ExamRepository.GetActiveExams | app/repositories/exam.py:18-25 | every result is active and dated at or after `now`; there are at most `limit`; the results are the window of such exams |
| ExamRepository.GetUpcomingExamsByCourse | app/repositories/exam.py:27-34 | every result is of the course, active, and at or after `now`; at most `limit`; the results are the window of such exams |
| ExamRepository.UpcomingByCourseWithinCourse | app/repositories/exam.py:18-34 | a course has no more upcoming exams than it has exams, and no more than there are upcoming exams overall |
| ExamService.CreateExam | app/services/exam_service.py:10-33 | succeeds iff the course exists, the date is not before `now` and `max_students > 0`; error order: missing course 404, past date 400, capacity 400; success appends the exam unchanged |
| ExamService.CreatedExamIsOpen | app/services/exam_service.py:10-33 | an active exam, once created, passes admission's exam checks at the same `now` |
| ExamService.UpdateExam | app/services/exam_service.py:69-88 | 404 for an unknown id; a sent date must not be before `now`; a sent capacity must be positive; omitted fields are not checked; sent fields replace stored ones; the course never changes; the stored exam with that id becomes the returned row and every other row stays as it was |
| ExamService.UpdateExamIsStored | app/services/exam_service.py:69-88 | after an update, looking the exam up by its id yields the updated exam |
| ExamService.CreateExamKeepsPositiveCapacities | app/services/exam_service.py:26-33 | creation keeps every stored exam's capacity positive |
| ExamService.UpdateExamKeepsPositiveCapacities | app/services/exam_service.py:81-88 | an update keeps every capacity positive: a sent capacity is checked, an omitted one is kept |
| ExamService.LoweringCapacityCanOverfill | app/services/exam_service.py:82-88 | lowering a full exam's capacity is accepted and leaves it over capacity; bookings are not re-checked |
| ExamService.GetExamsByCourse | app/services/exam_service.py:47-56 | 404 exactly when the course is missing; otherwise the course's exams, windowed |
| ExamService.GetUpcomingExamsByCourse | app/services/exam_service.py:58-67 | 404 exactly when the course is missing; otherwise its active exams not before `now`, windowed |
| ExamService.ActiveExamsAreBookable | app/repositories/exam.py:18-25 | every exam the active listing returns is open for admission; booking it never fails as missing, inactive or past |
| CourseRepository.GetByCode | app/repositories/course.py:8-9 | the result has that code; it is none exactly when no course has it |
| CourseRepository.GetByProfessorId | app/repositories/course.py:11-18 | every result is a stored course of that professor; at most `limit`; the results are the window of the professor's courses |
| CourseService.CreateCourse | app/services/course_service.py:10-32 | succeeds iff the code is unused and the professor id names a PROFESSOR; error order: used code 400, then missing user 404, then a non-professor, admins included, 400 |
| CourseService.CreateCourseKeepsUniqueCodes | app/services/course_service.py:10-32 | creation keeps course codes unique |
| CourseService.CreateCourseKeepsProfessorsAssigned | app/services/course_service.py:19-32 | creation keeps every course assigned to a stored professor |
| CourseService.GetCoursesByProfessor | app/services/course_service.py:43-57 | 404 for a missing user, 400 for a non-professor, otherwise that professor's courses, windowed |
| CourseService.UpdateCourseAsWritten | app/services/course_service.py:59-87 | the update as written: succeeds iff the course exists, a truthy code that is not the course's own is unused, and a truthy professor id names a PROFESSOR; error order 404, code 400, professor 404, non-professor 400; so an empty code or a professor id of 0 is written without any check; on success the stored course with that id becomes the returned row and every other row stays |
| CourseService.EmptyCodeSkipsUniqueness | app/services/course_service.py:64-71 | as written, renaming a course to an empty code another course holds succeeds and duplicates the code |
| CourseService.ZeroProfessorSkipsCheck | app/services/course_service.py:73-85 | as written, assigning professor id 0 succeeds although no user has that id |
| CourseService.UpdateCourse | app/services/course_service.py:59-87 | the update with presence-guarded checks: 404 for an unknown id; the course's own code skips the uniqueness check; any other sent code must be unused; a sent professor id must name a stored user (404 otherwise) who is a PROFESSOR (400 otherwise); an omitted one is not checked; the stored course with that id becomes the returned row and every other row stays |
| CourseService.AsWrittenAgrees | app/services/course_service.py:59-87 | except for an empty code or a professor id of 0, the update as written and the corrected update give the same result on every store |
| CourseService.UpdateCourseIsStored | app/services/course_service.py:59-87 | after the corrected update, looking the course up by its id yields the updated course |
| CourseService.UpdateCourseKeepsUniqueCodes | app/services/course_service.py:64-71 | the corrected update keeps course codes unique |
| CourseService.UpdateCourseKeepsProfessorsAssigned | app/services/course_service.py:73-87 | the corrected update keeps every course assigned to a stored professor |
| UserRepository.GetByEmail | app/repositories/user.py:9-10 | the result has that email; it is none exactly when no user has it |
| UserRepository.GetByStudentId | app/repositories/user.py:12-13 | the result has that student id; it is none exactly when no user has it |
| UserRepository.GetProfessors | app/repositories/user.py:15-16 | only PROFESSOR users, at most `limit`, the window of all professors |
| UserRepository.Create | app/repositories/user.py:18-30 | the stored record holds `hash(password)` for the password and copies every other field unchanged |
| UserRepository.Authenticate | app/repositories/user.py:32-38 | none for an unknown email; otherwise the user with that email iff the password verifies against its stored hash |
| UserRepository.CreateThenAuthenticate | app/repositories/user.py:18-38 | a user registered under a fresh email can log in with the stored (validated) email and the same password whenever `verify(p, hash(p))` holds |
| UserService.CreateUser | app/services/user_service.py:9-27 | succeeds iff the email is unused and a truthy student id is unused; a used email gives 400 first; an empty or missing student id is not checked |
| UserService.CreateUserKeepsUniqueEmails | app/services/user_service.py:9-27 | registration keeps emails unique |
| UserService.CreateUserKeepsUniqueStudentIds | app/services/user_service.py:18-27 | registration keeps non-empty student ids unique |
| UserService.UpdateUser | app/services/user_service.py:38-61 | 404 for an unknown id; a truthy sent email, then a truthy sent student id, must be the user's own or unused (400 otherwise, email first, then student id); sent email, names and student id replace the stored ones, omitted ones are kept; the role and the password hash never change; the stored user with that id becomes the returned row and every other user stays as it was |
| UserService.UpdateUserIsStored | app/services/user_service.py:38-61 | after an update, looking the user up by its id yields the updated user, with the stored role and password hash |
| UserService.UpdateUserKeepsUniqueEmails | app/services/user_service.py:43-50 | an update keeps emails unique |
| UserService.UpdateUserKeepsUniqueStudentIds | app/services/user_service.py:52-61 | an update keeps non-empty student ids unique |
| UserService.AuthenticateUser | app/services/user_service.py:69-76 | 401 exactly when the repository finds no match; otherwise a stored user with that email whose hash verifies |
| UserService.RegisterThenLogin | app/services/user_service.py:69-76 | logging in right after registering, with the stored (validated) email and the same password, returns the new user |

## Findings

| source | as written | input that shows it | evidently intended | confidence | as-written member | corrected member |
|---|---|---|---|---|---|---|
| app/services/course_service.py:65 | `if course_in.code and ...` skips the uniqueness check for an empty code | courses 1 (code "") and 2 (code "FIS"); update course 2 with code "" | a sent code is checked whatever its value, as `create_course` checks it | low: a unique index on the column, if the table has one, would reject the write; not executed | CourseService.UpdateCourseAsWritten, CourseService.EmptyCodeSkipsUniqueness | CourseService.UpdateCourse, CourseService.UpdateCourseKeepsUniqueCodes |
| app/services/course_service.py:74 | `if course_in.professor_id:` skips the professor check for id 0 | professor 1 teaching course 1; update course 1 with professor id 0 | a sent professor id is looked up whatever its value, as `create_course` looks it up | low: a foreign key on the column, if the table has one, would reject the write; not executed | CourseService.UpdateCourseAsWritten, CourseService.ZeroProfessorSkipsCheck | CourseService.UpdateCourse, CourseService.UpdateCourseKeepsProfessorsAssigned |

## Left out

- JWT signing and decoding: the model takes the decoded user id as an `Option<int>`. A token whose `sub` is missing or not an integer makes `int(...)` raise an exception that is not caught, so the caller gets a server error, not 401. The model does not distinguish this case. The unreachable `user_id is None` branch is not modelled.
- Password hashing and verification: these are the parameters `hash` and `verify`, about which nothing is assumed.
- `datetime.now()`: the clock is the parameter `now`. Dates are integers, with no time zones.
- The `created_at` and `updated_at` timestamps: they are set by the database clock.
- The race between the capacity count and the insert: the model is sequential.
- The repository base class, the database models and the session (`add`, `commit`, `refresh`) are not part of this model. Primary-key `get`/`create`/`update`/`remove` are modelled as table operations. An update is assumed to overwrite exactly the sent fields that are columns, so `UserUpdate.password` does not change the stored hash. Unique indexes and foreign keys the database may enforce are not modelled.
- Fields sent as JSON `null`: every field of an update payload is an `Option`, so a field sent as `null` is treated like one left out, and the stored value is kept. The base update may instead write NULL: `{"confirmed": null}` would then take a booking out of the confirmed count, and a `null` date or capacity would skip the checks in `update_exam` and be written.
- Pass-through operations: `get_booking`, `get_bookings`, `get_exam`, `get_exams`, `get_active_exams` (service), `get_course`, `get_courses`, `get_user`, `get_users`, `delete_exam`, `delete_course` and `delete_user`. Each is one primary-key lookup with 404, or one unfiltered listing, with the same shape as `DeleteBooking` and the repository queries.
- Routing and endpoint wiring: which gate guards which route, and the self-update route.
- Request-schema validation (`EmailStr` and the like). The only exception is that `UserService.UpdateUserKeepsUniqueEmails` assumes a sent email is not empty, as the email format requires.
- UserService.RegisterThenLogin and UserRepository.CreateThenAuthenticate hold for the email as stored after validation. Registration's `EmailStr` normalises the address (its domain is lower-cased), but the login form's username is a plain string and is not normalised. So a user who registered as `a@UNI.IT` and types that same text at login is refused with 401. The model has no normalisation step.
- Negative `skip` or `limit`: both are natural numbers in the model.
- Row order: `.first()` and `.offset().limit()` run without `ORDER BY`, so SQL promises no order. The model fixes one, the storage order (insertion order, with updates in place and deletions closing the gap). Which row `.first()` returns among several matches, and which rows a window holds, may differ in a real database.

=== FILE: booking_repository.dfy ===
/** The booking queries: lookup by (student, exam), the per-student and
    per-exam listings, and the confirmed-seat count the admission check uses. */
module BookingRepository {
  import opened Wrappers
  import opened Tables
  import opened Models

  function ForPair(studentId: int, examId: int): Row<Booking> -> bool
  {
    (b: Row<Booking>) => b.data.studentId == studentId && b.data.examId == examId
  }

  function ForStudent(studentId: int): Row<Booking> -> bool
  {
    (b: Row<Booking>) => b.data.studentId == studentId
  }

  function ForExam(examId: int): Row<Booking> -> bool
  {
    (b: Row<Booking>) => b.data.examId == examId
  }

  function ConfirmedFor(examId: int): Row<Booking> -> bool
  {
    (b: Row<Booking>) => b.data.examId == examId && b.data.confirmed
  }

  /** Some stored booking links `studentId` to `examId`, confirmed or not. */
  ghost predicate Booked(t: Table<Booking>, studentId: int, examId: int)
  {
    exists i :: 0 <= i < |t.rows| && t.rows[i].data.studentId == studentId && t.rows[i].data.examId == examId
  }

  /** At most one booking per (student, exam) pair. */
  ghost predicate UniquePairs(t: Table<Booking>)
  {
    forall i, j :: 0 <= i < j < |t.rows| ==>
      !(t.rows[i].data.studentId == t.rows[j].data.studentId && t.rows[i].data.examId == t.rows[j].data.examId)
  }

  function GetByStudentAndExam(t: Table<Booking>, studentId: int, examId: int): (r: Option<Row<Booking>>)
    ensures r.Some? ==> r.value in t.rows && r.value.data.studentId == studentId && r.value.data.examId == examId
    ensures r.None? <==> !Booked(t, studentId, examId)
  {
    First(t.rows, ForPair(studentId, examId))
  }

  function GetByStudentId(t: Table<Booking>, studentId: int, skip: nat, limit: nat): (r: seq<Row<Booking>>)
    ensures |r| <= limit
    ensures forall b :: b in r ==> b in t.rows && b.data.studentId == studentId
    ensures IsWindowOf(r, Filter(t.rows, ForStudent(studentId)), skip, limit)
  {
    var matching := Filter(t.rows, ForStudent(studentId));
    assert forall x :: x in matching ==> x in t.rows && x.data.studentId == studentId;
    Window(matching, skip, limit)
  }

  function GetByExamId(t: Table<Booking>, examId: int, skip: nat, limit: nat): (r: seq<Row<Booking>>)
    ensures |r| <= limit
    ensures forall b :: b in r ==> b in t.rows && b.data.examId == examId
    ensures IsWindowOf(r, Filter(t.rows, ForExam(examId)), skip, limit)
  {
    var matching := Filter(t.rows, ForExam(examId));
    assert forall x :: x in matching ==> x in t.rows && x.data.examId == examId;
    Window(matching, skip, limit)
  }

  /** The positions of the confirmed bookings for `examId`: the seats taken. */
  ghost function ConfirmedSeats(t: Table<Booking>, examId: int): set<int>
  {
    set i | 0 <= i < |t.rows| && t.rows[i].data.examId == examId && t.rows[i].data.confirmed
  }

  /** The number of CONFIRMED bookings for `examId`: unconfirmed ones take no seat. */
  function CountByExamId(t: Table<Booking>, examId: int): (n: nat)
    ensures n == |ConfirmedSeats(t, examId)|
    ensures n <= |Filter(t.rows, ForExam(examId))|
    ensures n == 0 <==> forall i :: 0 <= i < |t.rows| ==> !(t.rows[i].data.examId == examId && t.rows[i].data.confirmed)
  {
    FilterMonotone(t.rows, ConfirmedFor(examId), ForExam(examId));
    FilterCountsMatches(t.rows, ConfirmedFor(examId));
    assert Matching(t.rows, ConfirmedFor(examId)) == ConfirmedSeats(t, examId);
    |Filter(t.rows, ConfirmedFor(examId))|
  }

  /** Inserting a booking adds one to its exam's count exactly when it is
      confirmed, and leaves every other exam's count alone. */
  lemma CountAfterInsert(t: Table<Booking>, b: Booking, examId: int)
    ensures CountByExamId(Insert(t, b).0, examId)
         == CountByExamId(t, examId) + (if b.examId == examId && b.confirmed then 1 else 0)
  {
    var (t', row) := Insert(t, b);
    FilterAppend(t.rows, row, ConfirmedFor(examId));
  }

  /** Once a booking for the pair is stored, the pair lookup finds one. */
  lemma InsertedPairIsFound(t: Table<Booking>, b: Booking)
    ensures GetByStudentAndExam(Insert(t, b).0, b.studentId, b.examId).Some?
  {
    var (t', row) := Insert(t, b);
    assert t'.rows[|t.rows|] == row;
  }
}

=== FILE: booking_service.dfy ===
/** The booking admission engine and the booking maintenance operations.
    Every operation returns either the new store with its result, or the
    error it raised; an error carries no store, so a failed request commits
    nothing. */
module BookingService {
  import opened Wrappers
  import opened Tables
  import opened Models
  import opened BookingRepository

  /** `id` names a user whose role is student. */
  ghost predicate IsStudent(s: Store, id: int)
  {
    Get(s.users, id).Some? && Get(s.users, id).value.data.role == Student
  }

  /** `id` names an active exam that is not dated before `now`. */
  ghost predicate IsOpen(s: Store, id: int, now: int)
  {
    Get(s.exams, id).Some? && Get(s.exams, id).value.data.isActive && Get(s.exams, id).value.data.date >= now
  }

  /** `id` names an exam with fewer confirmed bookings than seats. */
  ghost predicate HasFreeSeat(s: Store, id: int)
  {
    Get(s.exams, id).Some? && CountByExamId(s.bookings, id) < Get(s.exams, id).value.data.maxStudents
  }

  /** No exam has more confirmed bookings than seats. */
  ghost predicate WithinCapacity(s: Store)
  {
    forall i :: 0 <= i < |s.exams.rows| ==>
      CountByExamId(s.bookings, s.exams.rows[i].id) <= s.exams.rows[i].data.maxStudents
  }

  /** Admission of `req`: seven checks in a fixed order, the first failing one
      deciding the error; only when all pass is the booking stored. */
  function CreateBooking(s: Store, req: Booking, now: int): (r: Result<(Store, Row<Booking>), Error>)
    // the admission decision
    ensures r.Ok? <==>
      IsStudent(s, req.studentId) && IsOpen(s, req.examId, now)
      && !Booked(s.bookings, req.studentId, req.examId) && HasFreeSeat(s, req.examId)
    // the effect: one booking with the requested fields appended, nothing else touched
    ensures r.Ok? ==> r.value.0 == s.(bookings := r.value.0.bookings)
    ensures r.Ok? ==> r.value.0.bookings.rows == s.bookings.rows + [r.value.1] && r.value.1.data == req
    ensures r.Ok? && ValidStore(s) ==> ValidStore(r.value.0) && Get(s.bookings, r.value.1.id).None?
    // the order of the checks
    ensures Get(s.users, req.studentId).None? ==> r == Err(StudentNotFound)
    ensures Get(s.users, req.studentId).Some? && !IsStudent(s, req.studentId) ==> r == Err(NotAStudent)
    ensures IsStudent(s, req.studentId) && Get(s.exams, req.examId).None? ==> r == Err(ExamNotFound)
    ensures (IsStudent(s, req.studentId) && Get(s.exams, req.examId).Some?
             && !Get(s.exams, req.examId).value.data.isActive) ==> r == Err(ExamInactive)
    ensures (IsStudent(s, req.studentId) && Get(s.exams, req.examId).Some?
             && Get(s.exams, req.examId).value.data.isActive
             && Get(s.exams, req.examId).value.data.date < now) ==> r == Err(ExamPassed)
    // a duplicate is reported even when the exam is full
    ensures (IsStudent(s, req.studentId) && IsOpen(s, req.examId, now)
             && Booked(s.bookings, req.studentId, req.examId)) ==> r == Err(AlreadyBooked)
    ensures (IsStudent(s, req.studentId) && IsOpen(s, req.examId, now)
             && !Booked(s.bookings, req.studentId, req.examId)
             && !HasFreeSeat(s, req.examId)) ==> r == Err(ExamFull)
    ensures r.Err? ==> r.error.Status() == 400 || r.error.Status() == 404
  {
    match Get(s.users, req.studentId)
    case None => Err(StudentNotFound)
    case Some(student) =>
      if student.data.role != Student then Err(NotAStudent)
      else match Get(s.exams, req.examId)
        case None => Err(ExamNotFound)
        case Some(exam) =>
          if !exam.data.isActive then Err(ExamInactive)
          else if exam.data.date < now then Err(ExamPassed)
          else if GetByStudentAndExam(s.bookings, req.studentId, req.examId).Some? then Err(AlreadyBooked)
          else if CountByExamId(s.bookings, req.examId) >= exam.data.maxStudents then Err(ExamFull)
          else
            var (bookings', row) := Insert(s.bookings, req);
            Ok((s.(bookings := bookings'), row))
  }

  /** An admission takes a seat exactly when the booking is confirmed. */
  lemma AdmissionTakesSeatIfConfirmed(s: Store, req: Booking, now: int, examId: int)
    requires CreateBooking(s, req, now).Ok?
    ensures CountByExamId(CreateBooking(s, req, now).value.0.bookings, examId)
         == CountByExamId(s.bookings, examId) + (if req.examId == examId && req.confirmed then 1 else 0)
  {
    CountAfterInsert(s.bookings, req, examId);
  }

  /** Admission keeps every exam within its capacity. */
  lemma CreateBookingKeepsCapacity(s: Store, req: Booking, now: int)
    requires ValidStore(s) && WithinCapacity(s)
    requires CreateBooking(s, req, now).Ok?
    ensures WithinCapacity(CreateBooking(s, req, now).value.0)
  {
    var s' := CreateBooking(s, req, now).value.0;
    forall i | 0 <= i < |s'.exams.rows|
      ensures CountByExamId(s'.bookings, s'.exams.rows[i].id) <= s'.exams.rows[i].data.maxStudents
    {
      var exam := s.exams.rows[i];
      AdmissionTakesSeatIfConfirmed(s, req, now, exam.id);
      if exam.id == req.examId {
        GetFindsStoredRow(s.exams, exam);
      }
    }
  }

  /** Admission keeps every (student, exam) pair booked at most once. */
  lemma CreateBookingKeepsUniquePairs(s: Store, req: Booking, now: int)
    requires UniquePairs(s.bookings)
    requires CreateBooking(s, req, now).Ok?
    ensures UniquePairs(CreateBooking(s, req, now).value.0.bookings)
  {
    var t' := CreateBooking(s, req, now).value.0.bookings;
    forall i, j | 0 <= i < j < |t'.rows|
      ensures !(t'.rows[i].data.studentId == t'.rows[j].data.studentId
                && t'.rows[i].data.examId == t'.rows[j].data.examId)
    {
      if j == |s.bookings.rows| {
        assert t'.rows[i] == s.bookings.rows[i];
      }
    }
  }

  /** Asking twice for the same seat: the second request is refused as a duplicate. */
  lemma SecondRequestIsDuplicate(s: Store, req: Booking, now: int)
    requires CreateBooking(s, req, now).Ok?
    ensures CreateBooking(CreateBooking(s, req, now).value.0, req, now) == Err(AlreadyBooked)
  {
    InsertedPairIsFound(s.bookings, req);
  }

  function GetBookingsByStudent(s: Store, studentId: int, skip: nat, limit: nat): (r: Result<seq<Row<Booking>>, Error>)
    ensures r.Err? <==> Get(s.users, studentId).None?
    ensures r.Err? ==> r.error == StudentNotFound
    ensures r.Ok? ==> |r.value| <= limit
    ensures r.Ok? ==> forall b :: b in r.value ==> b in s.bookings.rows && b.data.studentId == studentId
    ensures r.Ok? ==> IsWindowOf(r.value, Filter(s.bookings.rows, ForStudent(studentId)), skip, limit)
  {
    if Get(s.users, studentId).None? then Err(StudentNotFound)
    else Ok(GetByStudentId(s.bookings, studentId, skip, limit))
  }

  function GetBookingsByExam(s: Store, examId: int, skip: nat, limit: nat): (r: Result<seq<Row<Booking>>, Error>)
    ensures r.Err? <==> Get(s.exams, examId).None?
    ensures r.Err? ==> r.error == ExamNotFound
    ensures r.Ok? ==> |r.value| <= limit
    ensures r.Ok? ==> forall b :: b in r.value ==> b in s.bookings.rows && b.data.examId == examId
    ensures r.Ok? ==> IsWindowOf(r.value, Filter(s.bookings.rows, ForExam(examId)), skip, limit)
  {
    if Get(s.exams, examId).None? then Err(ExamNotFound)
    else Ok(GetByExamId(s.bookings, examId, skip, limit))
  }

  function CountBookingsByExam(s: Store, examId: int): (r: Result<nat, Error>)
    ensures r.Err? <==> Get(s.exams, examId).None?
    ensures r.Err? ==> r.error == ExamNotFound
    ensures r.Ok? ==> r.value == |ConfirmedSeats(s.bookings, examId)|
    ensures r.Ok? ==> r.value <= |Filter(s.bookings.rows, ForExam(examId))|
    ensures r.Ok? ==> (r.value == 0 <==> forall i :: 0 <= i < |s.bookings.rows| ==>
                         !(s.bookings.rows[i].data.examId == examId && s.bookings.rows[i].data.confirmed))
  {
    if Get(s.exams, examId).None? then Err(ExamNotFound)
    else Ok(CountByExamId(s.bookings, examId))
  }

  /** Sets `confirmed` when the update carries it; nothing else may change, and
      capacity is not re-checked. */
  function UpdateBooking(s: Store, id: int, upd: BookingUpdate): (r: Result<(Store, Row<Booking>), Error>)
    ensures r.Err? <==> Get(s.bookings, id).None?
    ensures r.Err? ==> r.error == BookingNotFound
    ensures r.Ok? ==> r.value.0 == s.(bookings := r.value.0.bookings)
    ensures r.Ok? ==>
      var old_ := Get(s.bookings, id).value;
      && r.value.1.id == id
      && r.value.1.data.studentId == old_.data.studentId
      && r.value.1.data.examId == old_.data.examId
      && r.value.1.data.confirmed == (if upd.confirmed.Some? then upd.confirmed.value else old_.data.confirmed)
    ensures r.Ok? ==> |r.value.0.bookings.rows| == |s.bookings.rows|
    ensures r.Ok? ==> forall i :: 0 <= i < |s.bookings.rows| ==>
      r.value.0.bookings.rows[i] == if s.bookings.rows[i].id == id then r.value.1 else s.bookings.rows[i]
    ensures r.Ok? && ValidStore(s) ==> ValidStore(r.value.0)
  {
    match Get(s.bookings, id)
    case None => Err(BookingNotFound)
    case Some(booking) =>
      var row := Row(id, booking.data.(confirmed := upd.confirmed.GetOr(booking.data.confirmed)));
      Ok((s.(bookings := Replace(s.bookings, row)), row))
  }

  /** Updating a booking never creates a second booking for a pair. */
  lemma UpdateBookingKeepsUniquePairs(s: Store, id: int, upd: BookingUpdate)
    requires Valid(s.bookings) && UniquePairs(s.bookings)
    requires UpdateBooking(s, id, upd).Ok?
    ensures UniquePairs(UpdateBooking(s, id, upd).value.0.bookings)
  {
    var t := s.bookings;
    var t' := UpdateBooking(s, id, upd).value.0.bookings;
    forall k | 0 <= k < |t.rows|
      ensures t'.rows[k].data.studentId == t.rows[k].data.studentId
      ensures t'.rows[k].data.examId == t.rows[k].data.examId
    {
      if t.rows[k].id == id {
        GetFindsStoredRow(t, t.rows[k]);
      }
    }
  }

  /** A store holding one single-seat exam, with a confirmed booking by student 1
      and an unconfirmed one by student 2. */
  function SingleSeatExam(): Store
  {
    var student := User("a@uni.it", "h", "A", "A", Student, Some("1"));
    var other := User("b@uni.it", "h", "B", "B", Student, Some("2"));
    Store(
      Table([Row(1, student), Row(2, other)], 3),
      Table([], 1),
      Table([Row(1, Exam(1, 100, "Aula 1", 1, None, true))], 2),
      Table([Row(1, Booking(1, 1, true)), Row(2, Booking(2, 1, false))], 3))
  }

  /** The confirmed-seat count of a two-booking table. */
  lemma CountOfTwo(a: Row<Booking>, b: Row<Booking>, n: int, examId: int)
    ensures CountByExamId(Table([a, b], n), examId)
         == (if a.data.examId == examId && a.data.confirmed then 1 else 0)
          + (if b.data.examId == examId && b.data.confirmed then 1 else 0)
  {
    var p := ConfirmedFor(examId);
    assert [a, b] == [a] + [b];
    assert [a] == [] + [a];
    FilterAppend([], a, p);
    FilterAppend([a], b, p);
  }

  /** The example store is a legitimate state: keys and pairs are unique and
      the exam is exactly full. */
  lemma SingleSeatExamIsFull()
    ensures ValidStore(SingleSeatExam()) && UniquePairs(SingleSeatExam().bookings)
    ensures WithinCapacity(SingleSeatExam()) && !HasFreeSeat(SingleSeatExam(), 1)
  {
    var s := SingleSeatExam();
    CountOfTwo(s.bookings.rows[0], s.bookings.rows[1], 3, 1);
    assert Get(s.exams, 1) == Some(s.exams.rows[0]);
  }

  /** Capacity is not an invariant of the whole system: confirming the waiting
      booking of a full exam succeeds and leaves the exam over capacity. */
  lemma ConfirmingCanOverfill()
    ensures ValidStore(SingleSeatExam()) && UniquePairs(SingleSeatExam().bookings)
    ensures WithinCapacity(SingleSeatExam()) && !HasFreeSeat(SingleSeatExam(), 1)
    ensures UpdateBooking(SingleSeatExam(), 2, BookingUpdate(Some(true))).Ok?
    ensures !WithinCapacity(UpdateBooking(SingleSeatExam(), 2, BookingUpdate(Some(true))).value.0)
  {
    SingleSeatExamIsFull();
    var s := SingleSeatExam();
    assert Get(s.bookings, 2) == Some(s.bookings.rows[1]);
    var r := UpdateBooking(s, 2, BookingUpdate(Some(true)));
    var s' := r.value.0;
    assert s'.bookings.rows == [Row(1, Booking(1, 1, true)), Row(2, Booking(2, 1, true))];
    CountOfTwo(s'.bookings.rows[0], s'.bookings.rows[1], 3, 1);
    assert s'.exams.rows[0] == Row(1, Exam(1, 100, "Aula 1", 1, None, true));
    assert CountByExamId(s'.bookings, s'.exams.rows[0].id) > s'.exams.rows[0].data.maxStudents;
  }

  /** Deletes the booking with key `id` and returns it. */
  function DeleteBooking(s: Store, id: int): (r: Result<(Store, Row<Booking>), Error>)
    ensures r.Err? <==> Get(s.bookings, id).None?
    ensures r.Err? ==> r.error == BookingNotFound
    ensures r.Ok? ==> r.value.0 == s.(bookings := r.value.0.bookings)
    ensures r.Ok? ==> r.value.1 in s.bookings.rows && r.value.1.id == id
    ensures r.Ok? ==> forall b :: b in r.value.0.bookings.rows <==> b in s.bookings.rows && b.id != id
    ensures r.Ok? && ValidStore(s) ==> ValidStore(r.value.0)
  {
    match Get(s.bookings, id)
    case None => Err(BookingNotFound)
    case Some(booking) => Ok((s.(bookings := Remove(s.bookings, id)), booking))
  }

  /** Removing a booking never raises an exam's confirmed count. */
  lemma RemoveKeepsCapacity(s: Store, id: int)
    requires WithinCapacity(s)
    ensures WithinCapacity(s.(bookings := Remove(s.bookings, id)))
  {
    var s' := s.(bookings := Remove(s.bookings, id));
    forall i | 0 <= i < |s'.exams.rows|
      ensures CountByExamId(s'.bookings, s'.exams.rows[i].id) <= s'.exams.rows[i].data.maxStudents
    {
      FilterOfFilter(s.bookings.rows, NotId(id), ConfirmedFor(s.exams.rows[i].id));
    }
  }

  /** Removing a booking never creates a second booking for a pair. */
  lemma RemoveKeepsUniquePairs(t: Table<Booking>, id: int)
    requires UniquePairs(t)
    ensures UniquePairs(Remove(t, id))
  {
    var key := (b: Row<Booking>) => (b.data.studentId, b.data.examId);
    assert KeysDistinct(t.rows, key);
    FilterKeepsKeysDistinct(t.rows, NotId(id), key);
  }

  /** Deletion keeps every exam within capacity and every pair booked at most once. */
  lemma DeleteBookingKeepsInvariants(s: Store, id: int)
    requires WithinCapacity(s) && UniquePairs(s.bookings)
    requires DeleteBooking(s, id).Ok?
    ensures WithinCapacity(DeleteBooking(s, id).value.0)
    ensures UniquePairs(DeleteBooking(s, id).value.0.bookings)
  {
    RemoveKeepsCapacity(s, id);
    RemoveKeepsUniquePairs(s.bookings, id);
  }

  /** Withdraws `studentId` from `examId`. Neither the student nor the exam
      needs to exist: only the booking does. */
  function CancelBooking(s: Store, studentId: int, examId: int): (r: Result<Store, Error>)
    ensures r.Ok? <==> Booked(s.bookings, studentId, examId)
    ensures r.Err? ==> r.error == BookingNotFound
    ensures r.Ok? ==> r.value == s.(bookings := r.value.bookings)
    ensures r.Ok? ==>
      exists i :: && 0 <= i < |s.bookings.rows|
                  && s.bookings.rows[i].data.studentId == studentId
                  && s.bookings.rows[i].data.examId == examId
                  && forall b :: b in r.value.bookings.rows <==> b in s.bookings.rows && b.id != s.bookings.rows[i].id
    ensures r.Ok? && ValidStore(s) ==> ValidStore(r.value)
  {
    match GetByStudentAndExam(s.bookings, studentId, examId)
    case None => Err(BookingNotFound)
    case Some(booking) => Ok(s.(bookings := Remove(s.bookings, booking.id)))
  }

  /** Cancellation keeps every exam within capacity and every pair booked at most once. */
  lemma CancelBookingKeepsInvariants(s: Store, studentId: int, examId: int)
    requires WithinCapacity(s) && UniquePairs(s.bookings)
    requires CancelBooking(s, studentId, examId).Ok?
    ensures WithinCapacity(CancelBooking(s, studentId, examId).value)
    ensures UniquePairs(CancelBooking(s, studentId, examId).value.bookings)
  {
    var booking := GetByStudentAndExam(s.bookings, studentId, examId).value;
    RemoveKeepsCapacity(s, booking.id);
    RemoveKeepsUniquePairs(s.bookings, booking.id);
  }

  /** With unique keys and pairs, a cancelled pair is no longer booked, so the
      student may be admitted again. */
  lemma CancelFreesPair(s: Store, studentId: int, examId: int)
    requires ValidStore(s) && UniquePairs(s.bookings)
    requires CancelBooking(s, studentId, examId).Ok?
    ensures !Booked(CancelBooking(s, studentId, examId).value.bookings, studentId, examId)
  {
    var booking := GetByStudentAndExam(s.bookings, studentId, examId).value;
    var t' := CancelBooking(s, studentId, examId).value.bookings;
    forall i | 0 <= i < |t'.rows|
      ensures !(t'.rows[i].data.studentId == studentId && t'.rows[i].data.examId == examId)
    {
      var b := t'.rows[i];
      assert b in t'.rows;
      assert b in s.bookings.rows && b.id != booking.id;
      var k :| 0 <= k < |s.bookings.rows| && s.bookings.rows[k] == b;
      var m :| 0 <= m < |s.bookings.rows| && s.bookings.rows[m] == booking;
      assert k != m;
    }
  }
}

=== FILE: course_repository.dfy ===
/** The course queries: lookup by code and the listing by professor. */
module CourseRepository {
  import opened Wrappers
  import opened Tables
  import opened Models

  function WithCode(code: string): Row<Course> -> bool
  {
    (c: Row<Course>) => c.data.code == code
  }

  function ForProfessor(professorId: int): Row<Course> -> bool
  {
    (c: Row<Course>) => c.data.professorId == professorId
  }

  /** No two courses share a code. */
  ghost predicate UniqueCodes(t: Table<Course>)
  {
    forall i, j :: 0 <= i < j < |t.rows| ==> t.rows[i].data.code != t.rows[j].data.code
  }

  function GetByCode(t: Table<Course>, code: string): (r: Option<Row<Course>>)
    ensures r.Some? ==> r.value in t.rows && r.value.data.code == code
    ensures r.None? <==> forall i :: 0 <= i < |t.rows| ==> t.rows[i].data.code != code
  {
    First(t.rows, WithCode(code))
  }

  function GetByProfessorId(t: Table<Course>, professorId: int, skip: nat, limit: nat): (r: seq<Row<Course>>)
    ensures |r| <= limit
    ensures forall c :: c in r ==> c in t.rows && c.data.professorId == professorId
    ensures IsWindowOf(r, Filter(t.rows, ForProfessor(professorId)), skip, limit)
  {
    var matching := Filter(t.rows, ForProfessor(professorId));
    assert forall x :: x in matching ==> x in t.rows && x.data.professorId == professorId;
    Window(matching, skip, limit)
  }
}

=== FILE: course_service.dfy ===
/** Course management: creation and update with their code-uniqueness and
    professor checks, and the listing by professor. */
module CourseService {
  import opened Wrappers
  import opened Tables
  import opened Models
  import opened CourseRepository

  /** `id` names a user whose role is professor (an administrator is not one). */
  ghost predicate IsProfessor(s: Store, id: int)
  {
    Get(s.users, id).Some? && Get(s.users, id).value.data.role == Professor
  }

  /** Every course is taught by a stored professor. */
  ghost predicate ProfessorsAssigned(s: Store)
  {
    forall i :: 0 <= i < |s.courses.rows| ==> IsProfessor(s, s.courses.rows[i].data.professorId)
  }

  function CreateCourse(s: Store, c: Course): (r: Result<(Store, Row<Course>), Error>)
    ensures r.Ok? <==> GetByCode(s.courses, c.code).None? && IsProfessor(s, c.professorId)
    // the order of the checks: the code comes before the professor
    ensures GetByCode(s.courses, c.code).Some? ==> r == Err(CodeTaken)
    ensures GetByCode(s.courses, c.code).None? && Get(s.users, c.professorId).None? ==> r == Err(ProfessorNotFound)
    ensures (GetByCode(s.courses, c.code).None? && Get(s.users, c.professorId).Some?
             && !IsProfessor(s, c.professorId)) ==> r == Err(NotAProfessor)
    // the effect
    ensures r.Ok? ==> r.value.0 == s.(courses := r.value.0.courses)
    ensures r.Ok? ==> r.value.0.courses.rows == s.courses.rows + [r.value.1] && r.value.1.data == c
    ensures r.Ok? && ValidStore(s) ==> ValidStore(r.value.0)
  {
    if GetByCode(s.courses, c.code).Some? then Err(CodeTaken)
    else match Get(s.users, c.professorId)
      case None => Err(ProfessorNotFound)
      case Some(professor) =>
        if professor.data.role != Professor then Err(NotAProfessor)
        else
          var (courses', row) := Insert(s.courses, c);
          Ok((s.(courses := courses'), row))
  }

  /** Creation keeps course codes unique. */
  lemma CreateCourseKeepsUniqueCodes(s: Store, c: Course)
    requires UniqueCodes(s.courses)
    requires CreateCourse(s, c).Ok?
    ensures UniqueCodes(CreateCourse(s, c).value.0.courses)
  {
    var t' := CreateCourse(s, c).value.0.courses;
    forall i, j | 0 <= i < j < |t'.rows| ensures t'.rows[i].data.code != t'.rows[j].data.code {
      if j == |s.courses.rows| {
        assert t'.rows[i] == s.courses.rows[i];
      }
    }
  }

  /** Creation keeps every course assigned to a professor. */
  lemma CreateCourseKeepsProfessorsAssigned(s: Store, c: Course)
    requires ProfessorsAssigned(s)
    requires CreateCourse(s, c).Ok?
    ensures ProfessorsAssigned(CreateCourse(s, c).value.0)
  {
    var s' := CreateCourse(s, c).value.0;
    forall i | 0 <= i < |s'.courses.rows| ensures IsProfessor(s', s'.courses.rows[i].data.professorId) {
      if i < |s.courses.rows| {
        assert s'.courses.rows[i] == s.courses.rows[i];
      }
    }
  }

  function GetCoursesByProfessor(s: Store, professorId: int, skip: nat, limit: nat): (r: Result<seq<Row<Course>>, Error>)
    ensures r.Ok? <==> IsProfessor(s, professorId)
    ensures Get(s.users, professorId).None? ==> r == Err(ProfessorNotFound)
    ensures Get(s.users, professorId).Some? && !IsProfessor(s, professorId) ==> r == Err(NotAProfessor)
    ensures r.Ok? ==> |r.value| <= limit
    ensures r.Ok? ==> forall c :: c in r.value ==> c in s.courses.rows && c.data.professorId == professorId
    ensures r.Ok? ==> IsWindowOf(r.value, Filter(s.courses.rows, ForProfessor(professorId)), skip, limit)
  {
    match Get(s.users, professorId)
    case None => Err(ProfessorNotFound)
    case Some(professor) =>
      if professor.data.role != Professor then Err(NotAProfessor)
      else Ok(GetByProfessorId(s.courses, professorId, skip, limit))
  }

  /** The course after an update: every sent field replaces the stored one. */
  function ApplyUpdate(course: Course, upd: CourseUpdate): Course
  {
    Course(
      upd.name.GetOr(course.name),
      upd.code.GetOr(course.code),
      upd.credits.GetOr(course.credits),
      upd.professorId.GetOr(course.professorId))
  }

  /** `update_course` as the source writes it: the code and professor checks are
      guarded by Python truthiness, so an empty code or a professor id of 0 is
      written without being checked. */
  function UpdateCourseAsWritten(s: Store, id: int, upd: CourseUpdate): (r: Result<(Store, Row<Course>), Error>)
    ensures r.Ok? <==>
      && Get(s.courses, id).Some?
      && (!GivenText(upd.code) || upd.code.value == Get(s.courses, id).value.data.code
          || GetByCode(s.courses, upd.code.value).None?)
      && (!GivenNumber(upd.professorId) || IsProfessor(s, upd.professorId.value))
    // the order of the checks, each guarded by truthiness
    ensures Get(s.courses, id).None? ==> r == Err(CourseNotFound)
    ensures (Get(s.courses, id).Some? && GivenText(upd.code) && upd.code.value != Get(s.courses, id).value.data.code
             && GetByCode(s.courses, upd.code.value).Some?) ==> r == Err(CodeTaken)
    ensures (&& Get(s.courses, id).Some?
             && (!GivenText(upd.code) || upd.code.value == Get(s.courses, id).value.data.code
                 || GetByCode(s.courses, upd.code.value).None?)
             && GivenNumber(upd.professorId) && Get(s.users, upd.professorId.value).None?) ==> r == Err(ProfessorNotFound)
    ensures (&& Get(s.courses, id).Some?
             && (!GivenText(upd.code) || upd.code.value == Get(s.courses, id).value.data.code
                 || GetByCode(s.courses, upd.code.value).None?)
             && GivenNumber(upd.professorId) && Get(s.users, upd.professorId.value).Some?
             && !IsProfessor(s, upd.professorId.value)) ==> r == Err(NotAProfessor)
    // the two falsy inputs the findings rely on
    ensures upd.code == Some("") && upd.professorId.None? ==> (r.Ok? <==> Get(s.courses, id).Some?)
    ensures upd.code.None? && upd.professorId == Some(0) ==> (r.Ok? <==> Get(s.courses, id).Some?)
    ensures r.Ok? ==> r.value.1 == Row(id, ApplyUpdate(Get(s.courses, id).value.data, upd))
    ensures r.Ok? ==> r.value.0 == s.(courses := r.value.0.courses)
    ensures r.Ok? ==> |r.value.0.courses.rows| == |s.courses.rows|
    ensures r.Ok? ==> forall i :: 0 <= i < |s.courses.rows| ==>
      r.value.0.courses.rows[i] == if s.courses.rows[i].id == id then r.value.1 else s.courses.rows[i]
  {
    match Get(s.courses, id)
    case None => Err(CourseNotFound)
    case Some(course) =>
      if GivenText(upd.code) && upd.code.value != course.data.code
         && GetByCode(s.courses, upd.code.value).Some? then Err(CodeTaken)
      else if GivenNumber(upd.professorId) && Get(s.users, upd.professorId.value).None? then Err(ProfessorNotFound)
      else if GivenNumber(upd.professorId) && Get(s.users, upd.professorId.value).value.data.role != Professor
      then Err(NotAProfessor)
      else
        var row := Row(id, ApplyUpdate(course.data, upd));
        Ok((s.(courses := Replace(s.courses, row)), row))
  }

  /** Two courses, one of them with the empty code that creation accepted. */
  function EmptyCodeCourses(): Store
  {
    Store(
      Table([Row(1, User("p@uni.it", "h", "P", "P", Professor, None))], 2),
      Table([Row(1, Course("Analisi", "", 6, 1)), Row(2, Course("Fisica", "FIS", 6, 1))], 3),
      Table([], 1),
      Table([], 1))
  }

  /** As written, renaming course 2 to the empty code that course 1 holds is
      accepted, and two courses end up sharing a code. */
  lemma EmptyCodeSkipsUniqueness()
    ensures UniqueCodes(EmptyCodeCourses().courses) && ProfessorsAssigned(EmptyCodeCourses())
    ensures UpdateCourseAsWritten(EmptyCodeCourses(), 2, CourseUpdate(None, Some(""), None, None)).Ok?
    ensures !UniqueCodes(UpdateCourseAsWritten(EmptyCodeCourses(), 2, CourseUpdate(None, Some(""), None, None)).value.0.courses)
  {
    var s := EmptyCodeCourses();
    assert Get(s.users, 1) == Some(s.users.rows[0]);
    assert Get(s.courses, 2) == Some(s.courses.rows[1]);
    var t' := UpdateCourseAsWritten(s, 2, CourseUpdate(None, Some(""), None, None)).value.0.courses;
    assert t'.rows[0].data.code == t'.rows[1].data.code;
  }

  /** As written, assigning course 1 to professor id 0 is accepted although no
      user has that id. */
  lemma ZeroProfessorSkipsCheck()
    ensures ProfessorsAssigned(EmptyCodeCourses())
    ensures UpdateCourseAsWritten(EmptyCodeCourses(), 1, CourseUpdate(None, None, None, Some(0))).Ok?
    ensures !ProfessorsAssigned(UpdateCourseAsWritten(EmptyCodeCourses(), 1, CourseUpdate(None, None, None, Some(0))).value.0)
  {
    var s := EmptyCodeCourses();
    assert Get(s.users, 1) == Some(s.users.rows[0]);
    assert Get(s.courses, 1) == Some(s.courses.rows[0]);
    var s' := UpdateCourseAsWritten(s, 1, CourseUpdate(None, None, None, Some(0))).value.0;
    assert s'.courses.rows[0].data.professorId == 0;
    assert Get(s'.users, 0).None?;
  }

  /** `update_course` with the checks guarded by presence, as evidently
      intended: a sent code must be the course's own or unused, and a sent
      professor id must name a professor. */
  function UpdateCourse(s: Store, id: int, upd: CourseUpdate): (r: Result<(Store, Row<Course>), Error>)
    ensures r.Ok? <==>
      && Get(s.courses, id).Some?
      && (upd.code.None? || upd.code.value == Get(s.courses, id).value.data.code
          || GetByCode(s.courses, upd.code.value).None?)
      && (upd.professorId.None? || IsProfessor(s, upd.professorId.value))
    // the order of the checks
    ensures Get(s.courses, id).None? ==> r == Err(CourseNotFound)
    ensures (Get(s.courses, id).Some? && upd.code.Some? && upd.code.value != Get(s.courses, id).value.data.code
             && GetByCode(s.courses, upd.code.value).Some?) ==> r == Err(CodeTaken)
    ensures (&& Get(s.courses, id).Some?
             && (upd.code.None? || upd.code.value == Get(s.courses, id).value.data.code
                 || GetByCode(s.courses, upd.code.value).None?)
             && upd.professorId.Some? && Get(s.users, upd.professorId.value).None?) ==> r == Err(ProfessorNotFound)
    ensures (&& Get(s.courses, id).Some?
             && (upd.code.None? || upd.code.value == Get(s.courses, id).value.data.code
                 || GetByCode(s.courses, upd.code.value).None?)
             && upd.professorId.Some? && Get(s.users, upd.professorId.value).Some?
             && !IsProfessor(s, upd.professorId.value)) ==> r == Err(NotAProfessor)
    ensures r.Err? && r.error in {ProfessorNotFound, NotAProfessor} ==> upd.professorId.Some?
    // the effect: the stored course `id` becomes the returned row; every other row stays
    ensures r.Ok? ==> r.value.1 == Row(id, ApplyUpdate(Get(s.courses, id).value.data, upd))
    ensures r.Ok? ==> r.value.0 == s.(courses := r.value.0.courses)
    ensures r.Ok? ==> |r.value.0.courses.rows| == |s.courses.rows|
    ensures r.Ok? ==> forall i :: 0 <= i < |s.courses.rows| ==>
      r.value.0.courses.rows[i] == if s.courses.rows[i].id == id then r.value.1 else s.courses.rows[i]
    ensures r.Ok? && ValidStore(s) ==> ValidStore(r.value.0)
  {
    match Get(s.courses, id)
    case None => Err(CourseNotFound)
    case Some(course) =>
      if upd.code.Some? && upd.code.value != course.data.code
         && GetByCode(s.courses, upd.code.value).Some? then Err(CodeTaken)
      else if upd.professorId.Some? && Get(s.users, upd.professorId.value).None? then Err(ProfessorNotFound)
      else if upd.professorId.Some? && Get(s.users, upd.professorId.value).value.data.role != Professor
      then Err(NotAProfessor)
      else
        var row := Row(id, ApplyUpdate(course.data, upd));
        Ok((s.(courses := Replace(s.courses, row)), row))
  }

  /** Away from the two falsy inputs, the code as written and the corrected
      update agree on every store. */
  lemma AsWrittenAgrees(s: Store, id: int, upd: CourseUpdate)
    requires upd.code != Some("") && upd.professorId != Some(0)
    ensures UpdateCourseAsWritten(s, id, upd) == UpdateCourse(s, id, upd)
  {
  }

  /** After an update, looking the course up by key yields the updated course. */
  lemma UpdateCourseIsStored(s: Store, id: int, upd: CourseUpdate)
    requires Valid(s.courses)
    requires UpdateCourse(s, id, upd).Ok?
    ensures Get(UpdateCourse(s, id, upd).value.0.courses, id) == Some(UpdateCourse(s, id, upd).value.1)
  {
    ReplaceThenGet(s.courses, UpdateCourse(s, id, upd).value.1);
  }

  /** The corrected update keeps course codes unique. */
  lemma UpdateCourseKeepsUniqueCodes(s: Store, id: int, upd: CourseUpdate)
    requires Valid(s.courses) && UniqueCodes(s.courses)
    requires UpdateCourse(s, id, upd).Ok?
    ensures UniqueCodes(UpdateCourse(s, id, upd).value.0.courses)
  {
    var t := s.courses;
    var course := Get(t, id).value;
    var t' := UpdateCourse(s, id, upd).value.0.courses;
    var m :| 0 <= m < |t.rows| && t.rows[m] == course;
    forall k | 0 <= k < |t.rows| && k != m ensures t'.rows[k] == t.rows[k] {
      assert t.rows[k].id != id;
    }
    forall i, j | 0 <= i < j < |t'.rows| ensures t'.rows[i].data.code != t'.rows[j].data.code {
      if (i == m || j == m) && upd.code.Some? && upd.code.value != course.data.code {
        assert GetByCode(t, upd.code.value).None?;
      }
    }
  }

  /** The corrected update keeps every course assigned to a professor. */
  lemma UpdateCourseKeepsProfessorsAssigned(s: Store, id: int, upd: CourseUpdate)
    requires ProfessorsAssigned(s)
    requires UpdateCourse(s, id, upd).Ok?
    ensures ProfessorsAssigned(UpdateCourse(s, id, upd).value.0)
  {
    var s' := UpdateCourse(s, id, upd).value.0;
    forall i | 0 <= i < |s'.courses.rows| ensures IsProfessor(s', s'.courses.rows[i].data.professorId) {
      if s.courses.rows[i].id == id {
        assert Get(s.courses, id).value in s.courses.rows;
      }
    }
  }
}

=== FILE: deps.dfy ===
/** The authorization gate in front of the protected routes. Token decoding is
    a library call: it enters as `decoded`, the user id the token carries, or
    `None` when the token does not decode. The gates read the users table and
    return a user; they never produce a new store. */
module Deps {
  import opened Wrappers
  import opened Tables
  import opened Models

  /** The caller the token names. */
  function GetCurrentUser(users: Table<User>, decoded: Option<int>): (r: Result<Row<User>, Error>)
    ensures decoded.None? ==> r == Err(InvalidToken)
    ensures decoded.Some? && Get(users, decoded.value).None? ==> r == Err(TokenUserNotFound)
    ensures r.Ok? <==> decoded.Some? && exists i :: 0 <= i < |users.rows| && users.rows[i].id == decoded.value
    ensures r.Ok? ==> r.value in users.rows && r.value.id == decoded.value
    ensures r.Err? ==> r.error.Status() == 401
  {
    match decoded
    case None => Err(InvalidToken)
    case Some(id) =>
      match Get(users, id)
      case None => Err(TokenUserNotFound)
      case Some(user) => Ok(user)
  }

  /** Admits administrators only. */
  function GetCurrentAdmin(current: Row<User>): (r: Result<Row<User>, Error>)
    ensures r.Ok? <==> current.data.role == Admin
    ensures r.Ok? ==> r.value == current
    ensures r.Err? ==> r.error == InsufficientPermissions && r.error.Status() == 403
  {
    if current.data.role != Admin then Err(InsufficientPermissions) else Ok(current)
  }

  /** Admits professors and administrators; students are refused. */
  function GetCurrentProfessor(current: Row<User>): (r: Result<Row<User>, Error>)
    ensures r.Ok? <==> current.data.role == Professor || current.data.role == Admin
    ensures current.data.role == Student ==> r == Err(InsufficientPermissions)
    ensures r.Ok? ==> r.value == current
    ensures r.Err? ==> r.error.Status() == 403
  {
    if current.data.role != Professor && current.data.role != Admin then Err(InsufficientPermissions)
    else Ok(current)
  }

  /** Whoever passes the admin gate passes the professor gate, as the same user. */
  lemma AdminPassesProfessorGate(current: Row<User>)
    ensures GetCurrentAdmin(current).Ok? ==> GetCurrentProfessor(current) == GetCurrentAdmin(current)
  {
  }

  /** The admin-only dependency chain: authentication first, then the role. */
  function RequireAdmin(users: Table<User>, decoded: Option<int>): (r: Result<Row<User>, Error>)
    ensures GetCurrentUser(users, decoded).Err? ==> r == GetCurrentUser(users, decoded)
    ensures r.Ok? <==> GetCurrentUser(users, decoded).Ok? && GetCurrentUser(users, decoded).value.data.role == Admin
    ensures GetCurrentUser(users, decoded).Ok? && GetCurrentUser(users, decoded).value.data.role != Admin ==>
      r == Err(InsufficientPermissions)
    ensures r.Ok? ==> r.value in users.rows && r.value.id == decoded.value
  {
    match GetCurrentUser(users, decoded)
    case Err(e) => Err(e)
    case Ok(user) => GetCurrentAdmin(user)
  }

  /** The professor-or-admin dependency chain. */
  function RequireProfessor(users: Table<User>, decoded: Option<int>): (r: Result<Row<User>, Error>)
    ensures GetCurrentUser(users, decoded).Err? ==> r == GetCurrentUser(users, decoded)
    ensures r.Ok? <==> GetCurrentUser(users, decoded).Ok? && GetCurrentUser(users, decoded).value.data.role != Student
    ensures GetCurrentUser(users, decoded).Ok? && GetCurrentUser(users, decoded).value.data.role == Student ==>
      r == Err(InsufficientPermissions)
    ensures r.Ok? ==> r.value in users.rows && r.value.id == decoded.value
  {
    match GetCurrentUser(users, decoded)
    case Err(e) => Err(e)
    case Ok(user) => GetCurrentProfessor(user)
  }

  /** A token that opens the admin-only routes opens the professor routes too. */
  lemma AdminRoutesImplyProfessorRoutes(users: Table<User>, decoded: Option<int>)
    ensures RequireAdmin(users, decoded).Ok? ==> RequireProfessor(users, decoded) == RequireAdmin(users, decoded)
  {
  }
}

=== FILE: exam_repository.dfy ===
/** The exam listings: by course, the active upcoming ones, and the active
    upcoming ones of one course. `now` stands for the clock reading the query
    compares against. */
module ExamRepository {
  import opened Tables
  import opened Models

  function ForCourse(courseId: int): Row<Exam> -> bool
  {
    (e: Row<Exam>) => e.data.courseId == courseId
  }

  /** Active, and not dated before `now` (an exam dated exactly `now` is upcoming). */
  function Upcoming(now: int): Row<Exam> -> bool
  {
    (e: Row<Exam>) => e.data.isActive && e.data.date >= now
  }

  function UpcomingForCourse(courseId: int, now: int): Row<Exam> -> bool
  {
    (e: Row<Exam>) => e.data.courseId == courseId && e.data.isActive && e.data.date >= now
  }

  function GetByCourseId(t: Table<Exam>, courseId: int, skip: nat, limit: nat): (r: seq<Row<Exam>>)
    ensures |r| <= limit
    ensures forall e :: e in r ==> e in t.rows && e.data.courseId == courseId
    ensures IsWindowOf(r, Filter(t.rows, ForCourse(courseId)), skip, limit)
  {
    var matching := Filter(t.rows, ForCourse(courseId));
    assert forall x :: x in matching ==> x in t.rows && x.data.courseId == courseId;
    Window(matching, skip, limit)
  }

  function GetActiveExams(t: Table<Exam>, now: int, skip: nat, limit: nat): (r: seq<Row<Exam>>)
    ensures |r| <= limit
    ensures forall e :: e in r ==> e in t.rows && e.data.isActive && e.data.date >= now
    ensures IsWindowOf(r, Filter(t.rows, Upcoming(now)), skip, limit)
  {
    var matching := Filter(t.rows, Upcoming(now));
    assert forall x :: x in matching ==> x in t.rows && x.data.isActive && x.data.date >= now;
    Window(matching, skip, limit)
  }

  function GetUpcomingExamsByCourse(t: Table<Exam>, courseId: int, now: int, skip: nat, limit: nat): (r: seq<Row<Exam>>)
    ensures |r| <= limit
    ensures forall e :: e in r ==> e in t.rows && e.data.courseId == courseId && e.data.isActive && e.data.date >= now
    ensures IsWindowOf(r, Filter(t.rows, UpcomingForCourse(courseId, now)), skip, limit)
  {
    var matching := Filter(t.rows, UpcomingForCourse(courseId, now));
    assert forall x :: x in matching ==> x in t.rows && x.data.courseId == courseId && x.data.isActive && x.data.date >= now;
    Window(matching, skip, limit)
  }

  /** The upcoming exams of a course are exactly its exams that are also upcoming,
      so the course listing never shows more of them than the full course listing. */
  lemma UpcomingByCourseWithinCourse(t: Table<Exam>, courseId: int, now: int)
    ensures |Filter(t.rows, UpcomingForCourse(courseId, now))| <= |Filter(t.rows, ForCourse(courseId))|
    ensures |Filter(t.rows, UpcomingForCourse(courseId, now))| <= |Filter(t.rows, Upcoming(now))|
  {
    FilterMonotone(t.rows, UpcomingForCourse(courseId, now), ForCourse(courseId));
    FilterMonotone(t.rows, UpcomingForCourse(courseId, now), Upcoming(now));
  }
}

=== FILE: exam_service.dfy ===
/** Exam management: creation and update with their date and capacity checks,
    and the per-course listings. `now` is the clock reading of the request. */
module ExamService {
  import opened Wrappers
  import opened Tables
  import opened Models
  import ExamRepository
  import BookingRepository
  import BookingService

  function CreateExam(s: Store, e: Exam, now: int): (r: Result<(Store, Row<Exam>), Error>)
    ensures r.Ok? <==> Get(s.courses, e.courseId).Some? && e.date >= now && e.maxStudents > 0
    // the order of the checks
    ensures Get(s.courses, e.courseId).None? ==> r == Err(CourseNotFound)
    ensures Get(s.courses, e.courseId).Some? && e.date < now ==> r == Err(ExamDateInPast)
    ensures (Get(s.courses, e.courseId).Some? && e.date >= now && e.maxStudents <= 0) ==> r == Err(NonPositiveCapacity)
    // the effect
    ensures r.Ok? ==> r.value.0 == s.(exams := r.value.0.exams)
    ensures r.Ok? ==> r.value.0.exams.rows == s.exams.rows + [r.value.1] && r.value.1.data == e
    ensures r.Ok? ==> r.value.1.data.maxStudents > 0 && r.value.1.data.date >= now
    ensures r.Ok? && ValidStore(s) ==> ValidStore(r.value.0)
  {
    if Get(s.courses, e.courseId).None? then Err(CourseNotFound)
    else if e.date < now then Err(ExamDateInPast)
    else if e.maxStudents <= 0 then Err(NonPositiveCapacity)
    else
      var (exams', row) := Insert(s.exams, e);
      Ok((s.(exams := exams'), row))
  }

  /** An active exam, once created, is open for booking at the same instant. */
  lemma CreatedExamIsOpen(s: Store, e: Exam, now: int)
    requires ValidStore(s) && e.isActive
    requires CreateExam(s, e, now).Ok?
    ensures BookingService.IsOpen(CreateExam(s, e, now).value.0, CreateExam(s, e, now).value.1.id, now)
  {
    var (s', row) := CreateExam(s, e, now).value;
    assert s'.exams.rows[|s.exams.rows|] == row;
    GetFindsStoredRow(s'.exams, row);
  }

  /** The value an update gives a field: the sent one, or else the stored one. */
  function ApplyUpdate(exam: Exam, upd: ExamUpdate): Exam
  {
    Exam(
      exam.courseId,
      upd.date.GetOr(exam.date),
      upd.location.GetOr(exam.location),
      upd.maxStudents.GetOr(exam.maxStudents),
      if upd.description.Some? then upd.description else exam.description,
      upd.isActive.GetOr(exam.isActive))
  }

  /** Updates the exam `id`. A date or capacity is validated only when sent, and
      the new capacity is not compared with the bookings already made. */
  function UpdateExam(s: Store, id: int, upd: ExamUpdate, now: int): (r: Result<(Store, Row<Exam>), Error>)
    ensures r.Ok? <==>
      && Get(s.exams, id).Some?
      && (upd.date.None? || upd.date.value >= now)
      && (upd.maxStudents.None? || upd.maxStudents.value > 0)
    // the order of the checks
    ensures Get(s.exams, id).None? ==> r == Err(ExamNotFound)
    ensures Get(s.exams, id).Some? && upd.date.Some? && upd.date.value < now ==> r == Err(ExamDateInPast)
    ensures (Get(s.exams, id).Some? && (upd.date.None? || upd.date.value >= now)
             && upd.maxStudents.Some? && upd.maxStudents.value <= 0) ==> r == Err(NonPositiveCapacity)
    // the effect: sent fields replace stored ones, the course never changes
    ensures r.Ok? ==>
      var old_ := Get(s.exams, id).value.data;
      var new_ := r.value.1.data;
      && r.value.1.id == id
      && new_.courseId == old_.courseId
      && (upd.date.Some? ==> new_.date == upd.date.value) && (upd.date.None? ==> new_.date == old_.date)
      && (upd.maxStudents.Some? ==> new_.maxStudents == upd.maxStudents.value)
      && (upd.maxStudents.None? ==> new_.maxStudents == old_.maxStudents)
      && (upd.isActive.Some? ==> new_.isActive == upd.isActive.value)
      && (upd.isActive.None? ==> new_.isActive == old_.isActive)
      && new_.location == upd.location.GetOr(old_.location)
      && new_.description == (if upd.description.Some? then upd.description else old_.description)
    // the stored exam `id` becomes the returned row; every other row stays
    ensures r.Ok? ==> r.value.0 == s.(exams := r.value.0.exams)
    ensures r.Ok? ==> |r.value.0.exams.rows| == |s.exams.rows|
    ensures r.Ok? ==> forall i :: 0 <= i < |s.exams.rows| ==>
      r.value.0.exams.rows[i] == if s.exams.rows[i].id == id then r.value.1 else s.exams.rows[i]
    ensures r.Ok? && ValidStore(s) ==> ValidStore(r.value.0)
  {
    match Get(s.exams, id)
    case None => Err(ExamNotFound)
    case Some(exam) =>
      if upd.date.Some? && upd.date.value < now then Err(ExamDateInPast)
      else if upd.maxStudents.Some? && upd.maxStudents.value <= 0 then Err(NonPositiveCapacity)
      else
        var row := Row(id, ApplyUpdate(exam.data, upd));
        Ok((s.(exams := Replace(s.exams, row)), row))
  }

  /** After an update, looking the exam up by its key yields the updated exam. */
  lemma UpdateExamIsStored(s: Store, id: int, upd: ExamUpdate, now: int)
    requires Valid(s.exams)
    requires UpdateExam(s, id, upd, now).Ok?
    ensures Get(UpdateExam(s, id, upd, now).value.0.exams, id) == Some(UpdateExam(s, id, upd, now).value.1)
  {
    ReplaceThenGet(s.exams, UpdateExam(s, id, upd, now).value.1);
  }

  /** Every stored exam has room for at least one student. */
  ghost predicate PositiveCapacities(s: Store)
  {
    forall i :: 0 <= i < |s.exams.rows| ==> s.exams.rows[i].data.maxStudents > 0
  }

  /** Creation keeps every capacity positive. */
  lemma CreateExamKeepsPositiveCapacities(s: Store, e: Exam, now: int)
    requires PositiveCapacities(s)
    requires CreateExam(s, e, now).Ok?
    ensures PositiveCapacities(CreateExam(s, e, now).value.0)
  {
    var s' := CreateExam(s, e, now).value.0;
    forall i | 0 <= i < |s'.exams.rows| ensures s'.exams.rows[i].data.maxStudents > 0 {
      if i < |s.exams.rows| {
        assert s'.exams.rows[i] == s.exams.rows[i];
      }
    }
  }

  /** An update keeps every capacity positive: a sent capacity is checked, and
      an unsent one keeps the stored value. */
  lemma UpdateExamKeepsPositiveCapacities(s: Store, id: int, upd: ExamUpdate, now: int)
    requires PositiveCapacities(s)
    requires UpdateExam(s, id, upd, now).Ok?
    ensures PositiveCapacities(UpdateExam(s, id, upd, now).value.0)
  {
    var (s', row) := UpdateExam(s, id, upd, now).value;
    var old_ := Get(s.exams, id).value;
    var m :| 0 <= m < |s.exams.rows| && s.exams.rows[m] == old_;
    assert row.data.maxStudents > 0;
    forall i | 0 <= i < |s'.exams.rows| ensures s'.exams.rows[i].data.maxStudents > 0 {
      assert s'.exams.rows[i] == if s.exams.rows[i].id == id then row else s.exams.rows[i];
    }
  }

  function GetExamsByCourse(s: Store, courseId: int, skip: nat, limit: nat): (r: Result<seq<Row<Exam>>, Error>)
    ensures r.Err? <==> Get(s.courses, courseId).None?
    ensures r.Err? ==> r.error == CourseNotFound
    ensures r.Ok? ==> |r.value| <= limit
    ensures r.Ok? ==> forall e :: e in r.value ==> e in s.exams.rows && e.data.courseId == courseId
    ensures r.Ok? ==> IsWindowOf(r.value, Filter(s.exams.rows, ExamRepository.ForCourse(courseId)), skip, limit)
  {
    if Get(s.courses, courseId).None? then Err(CourseNotFound)
    else Ok(ExamRepository.GetByCourseId(s.exams, courseId, skip, limit))
  }

  function GetUpcomingExamsByCourse(s: Store, courseId: int, now: int, skip: nat, limit: nat)
    : (r: Result<seq<Row<Exam>>, Error>)
    ensures r.Err? <==> Get(s.courses, courseId).None?
    ensures r.Err? ==> r.error == CourseNotFound
    ensures r.Ok? ==> |r.value| <= limit
    ensures r.Ok? ==> forall e :: e in r.value ==>
      e in s.exams.rows && e.data.courseId == courseId && e.data.isActive && e.data.date >= now
    ensures r.Ok? ==>
      IsWindowOf(r.value, Filter(s.exams.rows, ExamRepository.UpcomingForCourse(courseId, now)), skip, limit)
  {
    if Get(s.courses, courseId).None? then Err(CourseNotFound)
    else Ok(ExamRepository.GetUpcomingExamsByCourse(s.exams, courseId, now, skip, limit))
  }

  /** Every exam the active listing shows passes the exam checks of admission:
      a booking request for it is never refused as missing, inactive or past. */
  lemma ActiveExamsAreBookable(s: Store, now: int, skip: nat, limit: nat, req: Booking)
    requires ValidStore(s)
    ensures forall e :: e in ExamRepository.GetActiveExams(s.exams, now, skip, limit) ==> BookingService.IsOpen(s, e.id, now)
    ensures (exists e :: e in ExamRepository.GetActiveExams(s.exams, now, skip, limit) && e.id == req.examId) ==>
      BookingService.CreateBooking(s, req, now) !in {Err(ExamNotFound), Err(ExamInactive), Err(ExamPassed)}
  {
    forall e | e in ExamRepository.GetActiveExams(s.exams, now, skip, limit) ensures BookingService.IsOpen(s, e.id, now) {
      GetFindsStoredRow(s.exams, e);
    }
  }

  /** A store holding one two-seat exam with both seats taken by confirmed bookings. */
  function TwoSeatsTaken(): Store
  {
    Store(
      Table([Row(1, User("a@uni.it", "h", "A", "A", Student, Some("1"))),
             Row(2, User("b@uni.it", "h", "B", "B", Student, Some("2")))], 3),
      Table([], 1),
      Table([Row(1, Exam(1, 100, "Aula 1", 2, None, true))], 2),
      Table([Row(1, Booking(1, 1, true)), Row(2, Booking(2, 1, true))], 3))
  }

  /** Capacity is not an invariant of the whole system: lowering the capacity
      of a full exam below its confirmed bookings is accepted. */
  lemma LoweringCapacityCanOverfill()
    ensures BookingService.WithinCapacity(TwoSeatsTaken())
    ensures UpdateExam(TwoSeatsTaken(), 1, ExamUpdate(None, None, Some(1), None, None), 0).Ok?
    ensures !BookingService.WithinCapacity(
      UpdateExam(TwoSeatsTaken(), 1, ExamUpdate(None, None, Some(1), None, None), 0).value.0)
  {
    var s := TwoSeatsTaken();
    BookingService.CountOfTwo(s.bookings.rows[0], s.bookings.rows[1], 3, 1);
    assert Get(s.exams, 1) == Some(s.exams.rows[0]);
    var s' := UpdateExam(s, 1, ExamUpdate(None, None, Some(1), None, None), 0).value.0;
    assert s'.exams.rows[0] == Row(1, Exam(1, 100, "Aula 1", 1, None, true));
    assert BookingRepository.CountByExamId(s'.bookings, s'.exams.rows[0].id) > s'.exams.rows[0].data.maxStudents;
  }
}

=== FILE: models.dfy ===
/** The records of the exam-booking system, the request payloads the services
    accept, the errors they raise, and the store the repositories read and write. */
module Models {
  import opened Wrappers
  import opened Tables

  datatype Role = Student | Professor | Admin

  /** A user; the password is kept only as the hash the user repository computed. */
  datatype User = User(
    email: string,
    hashedPassword: string,
    firstName: string,
    lastName: string,
    role: Role,
    studentId: Option<string>)

  datatype Course = Course(name: string, code: string, credits: int, professorId: int)

  /** An exam; `date` is a point in time on the same integer clock as `now`. */
  datatype Exam = Exam(
    courseId: int,
    date: int,
    location: string,
    maxStudents: int,
    description: Option<string>,
    isActive: bool)

  datatype Booking = Booking(studentId: int, examId: int, confirmed: bool)

  /** The registration payload: the clear-text password is hashed before it is stored. */
  datatype UserCreate = UserCreate(
    email: string,
    password: string,
    firstName: string,
    lastName: string,
    role: Role,
    studentId: Option<string>)

  /** Partial updates: `None` means the field was not sent. `UserUpdate` has no role. */
  datatype UserUpdate = UserUpdate(
    email: Option<string>,
    firstName: Option<string>,
    lastName: Option<string>,
    password: Option<string>,
    studentId: Option<string>)

  datatype CourseUpdate = CourseUpdate(
    name: Option<string>,
    code: Option<string>,
    credits: Option<int>,
    professorId: Option<int>)

  datatype ExamUpdate = ExamUpdate(
    date: Option<int>,
    location: Option<string>,
    maxStudents: Option<int>,
    description: Option<string>,
    isActive: Option<bool>)

  datatype BookingUpdate = BookingUpdate(confirmed: Option<bool>)

  /** The whole database as a value. */
  datatype Store = Store(
    users: Table<User>,
    courses: Table<Course>,
    exams: Table<Exam>,
    bookings: Table<Booking>)

  /** Every table's primary keys are distinct and below its counter. */
  predicate ValidStore(s: Store)
  {
    Valid(s.users) && Valid(s.courses) && Valid(s.exams) && Valid(s.bookings)
  }

  /** The failures the services raise, one per distinct check. */
  datatype Error =
    | StudentNotFound | NotAStudent
    | ExamNotFound | ExamInactive | ExamPassed | AlreadyBooked | ExamFull
    | BookingNotFound
    | CourseNotFound | ExamDateInPast | NonPositiveCapacity
    | CodeTaken | ProfessorNotFound | NotAProfessor
    | UserNotFound | EmailTaken | StudentIdTaken | WrongCredentials
    | InvalidToken | TokenUserNotFound | InsufficientPermissions
  {
    /** The HTTP status code the error is reported with. */
    function Status(): int
    {
      match this
      case StudentNotFound | ExamNotFound | BookingNotFound | CourseNotFound
        | ProfessorNotFound | UserNotFound => 404
      case WrongCredentials | InvalidToken | TokenUserNotFound => 401
      case InsufficientPermissions => 403
      case _ => 400
    }
  }

  /** Python truthiness of an optional string: present and non-empty. */
  predicate GivenText(s: Option<string>)
  {
    s.Some? && s.value != ""
  }

  /** Python truthiness of an optional integer: present and non-zero. */
  predicate GivenNumber(n: Option<int>)
  {
    n.Some? && n.value != 0
  }
}

=== FILE: tables.dfy ===
/** An in-memory stand-in for one database table and for the SQL query
    primitives the repositories use: `.filter(...)`, `.first()`, `.count()`,
    `.offset(skip).limit(limit)`, and the primary-key `get`, `create`,
    `update` and `remove` of the repository base class. */
module Tables {
  import opened Wrappers

  /** A stored record: the primary key the database assigned, and its columns. */
  datatype Row<T> = Row(id: int, data: T)

  /** A table: its rows in storage order, and the next auto-increment key. */
  datatype Table<T> = Table(rows: seq<Row<T>>, nextId: int)

  /** Primary keys are distinct, and every key is below the auto-increment counter. */
  predicate Valid<T>(t: Table<T>)
  {
    && (forall i, j :: 0 <= i < j < |t.rows| ==> t.rows[i].id != t.rows[j].id)
    && (forall i :: 0 <= i < |t.rows| ==> t.rows[i].id < t.nextId)
  }

  function Min(a: int, b: int): int
  {
    if a <= b then a else b
  }

  /** The position of the first element satisfying `p`. */
  function FirstIndex<T>(xs: seq<T>, p: T -> bool): (r: Option<nat>)
    ensures r.Some? ==> r.value < |xs| && p(xs[r.value]) && forall j :: 0 <= j < r.value ==> !p(xs[j])
    ensures r.None? ==> forall j :: 0 <= j < |xs| ==> !p(xs[j])
  {
    if |xs| == 0 then None
    else if p(xs[0]) then Some(0)
    else match FirstIndex(xs[1..], p)
      case None => None
      case Some(k) => Some(k + 1)
  }

  /** The first element satisfying `p`, as a query's `.first()` returns it. */
  function First<T>(xs: seq<T>, p: T -> bool): (r: Option<T>)
    ensures r.Some? ==> r.value in xs && p(r.value)
    ensures r.None? <==> forall i :: 0 <= i < |xs| ==> !p(xs[i])
    ensures r.Some? ==> exists i :: 0 <= i < |xs| && xs[i] == r.value && forall j :: 0 <= j < i ==> !p(xs[j])
  {
    match FirstIndex(xs, p)
    case None => None
    case Some(i) => Some(xs[i])
  }

  /** The elements satisfying `p`, in their original order (a query's `.filter(...)`). */
  function Filter<T(!new)>(xs: seq<T>, p: T -> bool): (r: seq<T>)
    ensures |r| <= |xs|
    ensures forall x :: x in r <==> x in xs && p(x)
    ensures |r| == 0 <==> forall i :: 0 <= i < |xs| ==> !p(xs[i])
  {
    if |xs| == 0 then []
    else if p(xs[0]) then [xs[0]] + Filter(xs[1..], p)
    else Filter(xs[1..], p)
  }

  /** Filtering distributes over appending one element at the end. */
  lemma {:induction false} FilterAppend<T(!new)>(xs: seq<T>, x: T, p: T -> bool)
    ensures Filter(xs + [x], p) == Filter(xs, p) + (if p(x) then [x] else [])
  {
    if |xs| == 0 {
      assert xs + [x] == [x];
    } else {
      assert (xs + [x])[1..] == xs[1..] + [x];
      FilterAppend(xs[1..], x, p);
    }
  }

  /** The positions of `xs` whose element satisfies `p`. */
  ghost function Matching<T>(xs: seq<T>, p: T -> bool): set<int>
  {
    set i | 0 <= i < |xs| && p(xs[i])
  }

  /** A filter keeps one element per matching position: `.count()` of a
      filtered query is the number of rows that satisfy the filter. */
  lemma {:induction false} FilterCountsMatches<T(!new)>(xs: seq<T>, p: T -> bool)
    ensures |Filter(xs, p)| == |Matching(xs, p)|
  {
    if |xs| != 0 {
      var n := |xs| - 1;
      var init := xs[..n];
      assert xs == init + [xs[n]];
      FilterAppend(init, xs[n], p);
      FilterCountsMatches(init, p);
      if p(xs[n]) {
        assert Matching(xs, p) == Matching(init, p) + {n};
        assert n !in Matching(init, p);
      } else {
        assert Matching(xs, p) == Matching(init, p);
      }
    }
  }

  /** A stronger filter keeps no more elements than a weaker one. */
  lemma {:induction false} FilterMonotone<T(!new)>(xs: seq<T>, strong: T -> bool, weak: T -> bool)
    requires forall x :: x in xs && strong(x) ==> weak(x)
    ensures |Filter(xs, strong)| <= |Filter(xs, weak)|
  {
    if |xs| != 0 {
      FilterMonotone(xs[1..], strong, weak);
    }
  }

  /** No two elements of `xs` share a key. */
  ghost predicate KeysDistinct<T, K>(xs: seq<T>, key: T -> K)
  {
    forall i, j :: 0 <= i < j < |xs| ==> key(xs[i]) != key(xs[j])
  }

  /** Filtering a sequence that was already filtered keeps no more elements
      than filtering the original. */
  lemma {:induction false} FilterOfFilter<T(!new)>(xs: seq<T>, first: T -> bool, p: T -> bool)
    ensures |Filter(Filter(xs, first), p)| <= |Filter(xs, p)|
  {
    if |xs| != 0 {
      FilterOfFilter(xs[1..], first, p);
      var rest := Filter(xs[1..], first);
      if first(xs[0]) {
        assert ([xs[0]] + rest)[1..] == rest;
      }
    }
  }

  /** Filtering keeps distinct keys distinct. */
  lemma {:induction false} FilterKeepsKeysDistinct<T(!new), K>(xs: seq<T>, p: T -> bool, key: T -> K)
    requires KeysDistinct(xs, key)
    ensures KeysDistinct(Filter(xs, p), key)
  {
    if |xs| != 0 {
      var tail := xs[1..];
      assert KeysDistinct(tail, key) by {
        forall i, j | 0 <= i < j < |tail| ensures key(tail[i]) != key(tail[j]) {
          assert tail[i] == xs[i + 1] && tail[j] == xs[j + 1];
        }
      }
      FilterKeepsKeysDistinct(tail, p, key);
      var rest := Filter(tail, p);
      if p(xs[0]) {
        var r := [xs[0]] + rest;
        assert Filter(xs, p) == r;
        forall i, j | 0 <= i < j < |r| ensures key(r[i]) != key(r[j]) {
          assert r[j] == rest[j - 1];
          if i == 0 {
            assert rest[j - 1] in rest;
            assert r[j] in tail;
            var k :| 0 <= k < |tail| && tail[k] == r[j];
            assert tail[k] == xs[k + 1];
            assert key(xs[0]) != key(xs[k + 1]);
          } else {
            assert r[i] == rest[i - 1];
            assert 0 <= i - 1 < j - 1 < |rest|;
            assert key(rest[i - 1]) != key(rest[j - 1]);
          }
        }
      }
    }
  }

  /** Dropping rows keeps a table's keys valid. */
  lemma FilterKeepsValid<T(!new)>(t: Table<T>, p: Row<T> -> bool)
    ensures Valid(t) ==> Valid(Table(Filter(t.rows, p), t.nextId))
  {
    if Valid(t) {
      FilterKeepsKeysDistinct(t.rows, p, (row: Row<T>) => row.id);
      var rows := Filter(t.rows, p);
      forall i | 0 <= i < |rows| ensures rows[i].id < t.nextId {
        assert rows[i] in t.rows;
      }
    }
  }

  /** `r` holds the `limit` elements of `xs` that follow its first `skip`
      ones, or all of those that exist when there are fewer. */
  ghost predicate IsWindowOf<T>(r: seq<T>, xs: seq<T>, skip: nat, limit: nat)
  {
    && |r| == (if skip < |xs| then Min(limit, |xs| - skip) else 0)
    && forall i :: 0 <= i < |r| ==> skip + i < |xs| && r[i] == xs[skip + i]
  }

  /** The `limit` elements that follow the first `skip` ones (`.offset(skip).limit(limit)`). */
  function Window<T(!new)>(xs: seq<T>, skip: nat, limit: nat): (r: seq<T>)
    ensures |r| <= limit
    ensures forall x :: x in r ==> x in xs
    ensures IsWindowOf(r, xs, skip, limit)
  {
    if skip < |xs| then xs[skip..skip + Min(limit, |xs| - skip)] else []
  }

  /** The predicate "has primary key `id`". */
  function HasId<T>(id: int): Row<T> -> bool
  {
    (row: Row<T>) => row.id == id
  }

  /** The predicate "does not have primary key `id`". */
  function NotId<T>(id: int): Row<T> -> bool
  {
    (row: Row<T>) => row.id != id
  }

  /** Lookup by primary key (the base repository's `get`). */
  function Get<T>(t: Table<T>, id: int): (r: Option<Row<T>>)
    ensures r.Some? ==> r.value in t.rows && r.value.id == id
    ensures r.None? <==> forall i :: 0 <= i < |t.rows| ==> t.rows[i].id != id
  {
    First(t.rows, HasId(id))
  }

  /** With distinct keys, looking up a stored row's key finds that very row. */
  lemma GetFindsStoredRow<T>(t: Table<T>, row: Row<T>)
    requires Valid(t)
    requires row in t.rows
    ensures Get(t, row.id) == Some(row)
  {
  }

  /** After an update of a stored key, looking the key up finds the new row. */
  lemma ReplaceThenGet<T>(t: Table<T>, row: Row<T>)
    requires Valid(t) && Get(t, row.id).Some?
    ensures Get(Replace(t, row), row.id) == Some(row)
  {
    var t' := Replace(t, row);
    var k :| 0 <= k < |t.rows| && t.rows[k] == Get(t, row.id).value;
    assert t'.rows[k] == row;
    GetFindsStoredRow(t', row);
  }

  /** Insertion of a new record (the base repository's `create`): the row gets
      the next auto-increment key and is appended at the end. */
  function Insert<T>(t: Table<T>, data: T): (r: (Table<T>, Row<T>))
    ensures r.0.rows == t.rows + [r.1]
    ensures r.1.data == data
    ensures Valid(t) ==> Valid(r.0) && Get(t, r.1.id).None?
  {
    var row := Row(t.nextId, data);
    (Table(t.rows + [row], t.nextId + 1), row)
  }

  /** Overwrites the row whose key is `row.id` (the base repository's `update`). */
  function Replace<T>(t: Table<T>, row: Row<T>): (t': Table<T>)
    ensures t'.nextId == t.nextId && |t'.rows| == |t.rows|
    ensures forall i :: 0 <= i < |t.rows| ==> t'.rows[i] == if t.rows[i].id == row.id then row else t.rows[i]
    ensures Valid(t) ==> Valid(t')
  {
    Table(seq(|t.rows|, i requires 0 <= i < |t.rows| => if t.rows[i].id == row.id then row else t.rows[i]), t.nextId)
  }

  /** Deletion by primary key (the base repository's `remove`). */
  function Remove<T(!new)>(t: Table<T>, id: int): (t': Table<T>)
    ensures t'.nextId == t.nextId
    ensures forall x :: x in t'.rows <==> x in t.rows && x.id != id
    ensures Valid(t) ==> Valid(t')
  {
    FilterKeepsValid(t, NotId(id));
    Table(Filter(t.rows, NotId(id)), t.nextId)
  }
}

=== FILE: user_repository.dfy ===
/** The user queries, registration and credential check. Password hashing and
    verification are library calls; they enter as the functions `hash` and
    `verify` (`verify(password, stored)` answers whether `password` matches the
    stored hash). */
module UserRepository {
  import opened Wrappers
  import opened Tables
  import opened Models

  function WithEmail(email: string): Row<User> -> bool
  {
    (u: Row<User>) => u.data.email == email
  }

  function WithStudentId(studentId: string): Row<User> -> bool
  {
    (u: Row<User>) => u.data.studentId == Some(studentId)
  }

  function HasProfessorRole(): Row<User> -> bool
  {
    (u: Row<User>) => u.data.role == Professor
  }

  /** No two users share an email. */
  ghost predicate UniqueEmails(t: Table<User>)
  {
    forall i, j :: 0 <= i < j < |t.rows| ==> t.rows[i].data.email != t.rows[j].data.email
  }

  /** No two users share a non-empty student identifier (an empty one counts as none). */
  ghost predicate UniqueStudentIds(t: Table<User>)
  {
    forall i, j :: 0 <= i < j < |t.rows| && GivenText(t.rows[i].data.studentId) ==>
      t.rows[i].data.studentId != t.rows[j].data.studentId
  }

  function GetByEmail(t: Table<User>, email: string): (r: Option<Row<User>>)
    ensures r.Some? ==> r.value in t.rows && r.value.data.email == email
    ensures r.None? <==> forall i :: 0 <= i < |t.rows| ==> t.rows[i].data.email != email
  {
    First(t.rows, WithEmail(email))
  }

  function GetByStudentId(t: Table<User>, studentId: string): (r: Option<Row<User>>)
    ensures r.Some? ==> r.value in t.rows && r.value.data.studentId == Some(studentId)
    ensures r.None? <==> forall i :: 0 <= i < |t.rows| ==> t.rows[i].data.studentId != Some(studentId)
  {
    First(t.rows, WithStudentId(studentId))
  }

  function GetProfessors(t: Table<User>, skip: nat, limit: nat): (r: seq<Row<User>>)
    ensures |r| <= limit
    ensures forall u :: u in r ==> u in t.rows && u.data.role == Professor
    ensures IsWindowOf(r, Filter(t.rows, HasProfessorRole()), skip, limit)
  {
    var matching := Filter(t.rows, HasProfessorRole());
    assert forall x :: x in matching ==> x in t.rows && x.data.role == Professor;
    Window(matching, skip, limit)
  }

  /** Registration: the stored record keeps every field of the payload except
      the password, which is replaced by its hash. */
  function Create(t: Table<User>, obj: UserCreate, hash: string -> string): (r: (Table<User>, Row<User>))
    ensures r.0.rows == t.rows + [r.1]
    ensures r.1.data.hashedPassword == hash(obj.password)
    ensures r.1.data.email == obj.email && r.1.data.role == obj.role && r.1.data.studentId == obj.studentId
    ensures r.1.data.firstName == obj.firstName && r.1.data.lastName == obj.lastName
    ensures Valid(t) ==> Valid(r.0)
  {
    Insert(t, User(obj.email, hash(obj.password), obj.firstName, obj.lastName, obj.role, obj.studentId))
  }

  /** The user registered under `email`, if the password verifies against its hash. */
  function Authenticate(t: Table<User>, email: string, password: string, verify: (string, string) -> bool)
    : (r: Option<Row<User>>)
    ensures (forall i :: 0 <= i < |t.rows| ==> t.rows[i].data.email != email) ==> r.None?
    ensures r.Some? <==> GetByEmail(t, email).Some? && verify(password, GetByEmail(t, email).value.data.hashedPassword)
    ensures r.Some? ==> r.value in t.rows && r.value.data.email == email
  {
    match GetByEmail(t, email)
    case None => None
    case Some(user) => if verify(password, user.data.hashedPassword) then Some(user) else None
  }

  /** Round trip: a user registered under a fresh email can log in with the
      password they registered with, whenever the verifier accepts a password
      against its own hash. */
  lemma CreateThenAuthenticate(t: Table<User>, obj: UserCreate, hash: string -> string,
                               verify: (string, string) -> bool)
    requires GetByEmail(t, obj.email).None?
    requires verify(obj.password, hash(obj.password))
    ensures Authenticate(Create(t, obj, hash).0, obj.email, obj.password, verify) == Some(Create(t, obj, hash).1)
  {
    var (t', row) := Create(t, obj, hash);
    assert t'.rows[|t.rows|] == row;
  }
}

=== FILE: user_service.dfy ===
/** User management: registration and update with their email and student-id
    uniqueness checks, and login. `hash` and `verify` stand for the password
    library, as in the user repository. */
module UserService {
  import opened Wrappers
  import opened Tables
  import opened Models
  import opened UserRepository

  /** Registration. A student id is checked only when it is truthy (present
      and non-empty). */
  function CreateUser(s: Store, obj: UserCreate, hash: string -> string): (r: Result<(Store, Row<User>), Error>)
    ensures r.Ok? <==>
      GetByEmail(s.users, obj.email).None?
      && (!GivenText(obj.studentId) || GetByStudentId(s.users, obj.studentId.value).None?)
    // the order of the checks: the email comes first
    ensures GetByEmail(s.users, obj.email).Some? ==> r == Err(EmailTaken)
    ensures (GetByEmail(s.users, obj.email).None? && GivenText(obj.studentId)
             && GetByStudentId(s.users, obj.studentId.value).Some?) ==> r == Err(StudentIdTaken)
    // the effect
    ensures r.Ok? ==> r.value.0 == s.(users := r.value.0.users)
    ensures r.Ok? ==> r.value.0.users.rows == s.users.rows + [r.value.1]
    ensures r.Ok? ==> r.value.1.data == User(obj.email, hash(obj.password), obj.firstName, obj.lastName, obj.role, obj.studentId)
    ensures r.Ok? && ValidStore(s) ==> ValidStore(r.value.0)
  {
    if GetByEmail(s.users, obj.email).Some? then Err(EmailTaken)
    else if GivenText(obj.studentId) && GetByStudentId(s.users, obj.studentId.value).Some? then Err(StudentIdTaken)
    else
      var (users', row) := Create(s.users, obj, hash);
      Ok((s.(users := users'), row))
  }

  /** Registration keeps emails unique. */
  lemma CreateUserKeepsUniqueEmails(s: Store, obj: UserCreate, hash: string -> string)
    requires UniqueEmails(s.users)
    requires CreateUser(s, obj, hash).Ok?
    ensures UniqueEmails(CreateUser(s, obj, hash).value.0.users)
  {
    var t' := CreateUser(s, obj, hash).value.0.users;
    forall i, j | 0 <= i < j < |t'.rows| ensures t'.rows[i].data.email != t'.rows[j].data.email {
      if j == |s.users.rows| {
        assert t'.rows[i] == s.users.rows[i];
      }
    }
  }

  /** Registration keeps non-empty student ids unique. */
  lemma CreateUserKeepsUniqueStudentIds(s: Store, obj: UserCreate, hash: string -> string)
    requires UniqueStudentIds(s.users)
    requires CreateUser(s, obj, hash).Ok?
    ensures UniqueStudentIds(CreateUser(s, obj, hash).value.0.users)
  {
    var t' := CreateUser(s, obj, hash).value.0.users;
    var n := |s.users.rows|;
    forall i, j | 0 <= i < j < |t'.rows| && GivenText(t'.rows[i].data.studentId)
      ensures t'.rows[i].data.studentId != t'.rows[j].data.studentId
    {
      if j == n {
        assert t'.rows[i] == s.users.rows[i];
        assert t'.rows[j].data.studentId == obj.studentId;
      }
    }
  }

  /** The user after an update: sent fields replace stored ones. The role is
      not part of an update, and the password is not a column, so neither changes. */
  function ApplyUpdate(user: User, upd: UserUpdate): User
  {
    user.(
      email := upd.email.GetOr(user.email),
      firstName := upd.firstName.GetOr(user.firstName),
      lastName := upd.lastName.GetOr(user.lastName),
      studentId := if upd.studentId.Some? then upd.studentId else user.studentId)
  }

  /** Updates user `id`. A sent email or student id is checked only when it is
      truthy and differs from the user's own. */
  function UpdateUser(s: Store, id: int, upd: UserUpdate): (r: Result<(Store, Row<User>), Error>)
    ensures r.Ok? <==>
      && Get(s.users, id).Some?
      && (!GivenText(upd.email) || upd.email.value == Get(s.users, id).value.data.email
          || GetByEmail(s.users, upd.email.value).None?)
      && (!GivenText(upd.studentId) || upd.studentId == Get(s.users, id).value.data.studentId
          || GetByStudentId(s.users, upd.studentId.value).None?)
    // the order of the checks
    ensures Get(s.users, id).None? ==> r == Err(UserNotFound)
    ensures (Get(s.users, id).Some? && GivenText(upd.email) && upd.email.value != Get(s.users, id).value.data.email
             && GetByEmail(s.users, upd.email.value).Some?) ==> r == Err(EmailTaken)
    ensures (&& Get(s.users, id).Some?
             && (!GivenText(upd.email) || upd.email.value == Get(s.users, id).value.data.email
                 || GetByEmail(s.users, upd.email.value).None?)
             && GivenText(upd.studentId) && upd.studentId != Get(s.users, id).value.data.studentId
             && GetByStudentId(s.users, upd.studentId.value).Some?) ==> r == Err(StudentIdTaken)
    ensures r.Err? && r.error == StudentIdTaken ==>
      GivenText(upd.studentId) && GetByStudentId(s.users, upd.studentId.value).Some?
    // the effect: never the role, never the password hash
    ensures r.Ok? ==> r.value.1.id == id
    ensures r.Ok? ==> r.value.1.data.role == Get(s.users, id).value.data.role
    ensures r.Ok? ==> r.value.1.data.hashedPassword == Get(s.users, id).value.data.hashedPassword
    ensures r.Ok? && upd.email.Some? ==> r.value.1.data.email == upd.email.value
    ensures r.Ok? && upd.email.None? ==> r.value.1.data.email == Get(s.users, id).value.data.email
    ensures r.Ok? ==> r.value.1.data.firstName == upd.firstName.GetOr(Get(s.users, id).value.data.firstName)
    ensures r.Ok? ==> r.value.1.data.lastName == upd.lastName.GetOr(Get(s.users, id).value.data.lastName)
    ensures r.Ok? && upd.studentId.Some? ==> r.value.1.data.studentId == upd.studentId
    ensures r.Ok? && upd.studentId.None? ==> r.value.1.data.studentId == Get(s.users, id).value.data.studentId
    ensures r.Ok? ==> r.value.1 == Row(id, ApplyUpdate(Get(s.users, id).value.data, upd))
    // the stored user `id` becomes the returned row; every other row stays
    ensures r.Ok? ==> r.value.0 == s.(users := r.value.0.users)
    ensures r.Ok? ==> |r.value.0.users.rows| == |s.users.rows|
    ensures r.Ok? ==> forall i :: 0 <= i < |s.users.rows| ==>
      r.value.0.users.rows[i] == if s.users.rows[i].id == id then r.value.1 else s.users.rows[i]
    ensures r.Ok? && ValidStore(s) ==> ValidStore(r.value.0)
  {
    match Get(s.users, id)
    case None => Err(UserNotFound)
    case Some(user) =>
      if GivenText(upd.email) && upd.email.value != user.data.email
         && GetByEmail(s.users, upd.email.value).Some? then Err(EmailTaken)
      else if GivenText(upd.studentId) && upd.studentId != user.data.studentId
         && GetByStudentId(s.users, upd.studentId.value).Some? then Err(StudentIdTaken)
      else
        var row := Row(id, ApplyUpdate(user.data, upd));
        Ok((s.(users := Replace(s.users, row)), row))
  }

  /** After an update, looking the user up by key yields the updated user, whose
      role and password hash are still the stored ones. */
  lemma UpdateUserIsStored(s: Store, id: int, upd: UserUpdate)
    requires Valid(s.users)
    requires UpdateUser(s, id, upd).Ok?
    ensures Get(UpdateUser(s, id, upd).value.0.users, id) == Some(UpdateUser(s, id, upd).value.1)
    ensures Get(UpdateUser(s, id, upd).value.0.users, id).value.data.role == Get(s.users, id).value.data.role
    ensures Get(UpdateUser(s, id, upd).value.0.users, id).value.data.hashedPassword
         == Get(s.users, id).value.data.hashedPassword
  {
    ReplaceThenGet(s.users, UpdateUser(s, id, upd).value.1);
  }

  /** An update keeps emails unique. An empty address is excluded because the
      request schema only admits well-formed email addresses. */
  lemma UpdateUserKeepsUniqueEmails(s: Store, id: int, upd: UserUpdate)
    requires Valid(s.users) && UniqueEmails(s.users)
    requires upd.email != Some("")
    requires UpdateUser(s, id, upd).Ok?
    ensures UniqueEmails(UpdateUser(s, id, upd).value.0.users)
  {
    var t := s.users;
    var user := Get(t, id).value;
    var t' := UpdateUser(s, id, upd).value.0.users;
    var m :| 0 <= m < |t.rows| && t.rows[m] == user;
    forall k | 0 <= k < |t.rows| && k != m ensures t'.rows[k] == t.rows[k] {
      assert t.rows[k].id != id;
    }
    forall i, j | 0 <= i < j < |t'.rows| ensures t'.rows[i].data.email != t'.rows[j].data.email {
      if (i == m || j == m) && upd.email.Some? && upd.email.value != user.data.email {
        assert GetByEmail(t, upd.email.value).None?;
      }
    }
  }

  /** An update keeps non-empty student ids unique. */
  lemma UpdateUserKeepsUniqueStudentIds(s: Store, id: int, upd: UserUpdate)
    requires Valid(s.users) && UniqueStudentIds(s.users)
    requires UpdateUser(s, id, upd).Ok?
    ensures UniqueStudentIds(UpdateUser(s, id, upd).value.0.users)
  {
    var t := s.users;
    var user := Get(t, id).value;
    var t' := UpdateUser(s, id, upd).value.0.users;
    var m :| 0 <= m < |t.rows| && t.rows[m] == user;
    forall k | 0 <= k < |t.rows| && k != m ensures t'.rows[k] == t.rows[k] {
      assert t.rows[k].id != id;
    }
    forall i, j | 0 <= i < j < |t'.rows| && GivenText(t'.rows[i].data.studentId)
      ensures t'.rows[i].data.studentId != t'.rows[j].data.studentId
    {
      if (i == m || j == m) && GivenText(upd.studentId) && upd.studentId != user.data.studentId {
        assert GetByStudentId(t, upd.studentId.value).None?;
      }
    }
  }

  /** Login: refused with 401 exactly when the repository finds no match. */
  function AuthenticateUser(s: Store, email: string, password: string, verify: (string, string) -> bool)
    : (r: Result<Row<User>, Error>)
    ensures r.Err? <==> Authenticate(s.users, email, password, verify).None?
    ensures r.Err? ==> r.error == WrongCredentials && r.error.Status() == 401
    ensures r.Ok? ==> r.value in s.users.rows && r.value.data.email == email
    ensures r.Ok? ==> verify(password, r.value.data.hashedPassword)
  {
    match Authenticate(s.users, email, password, verify)
    case None => Err(WrongCredentials)
    case Some(user) => Ok(user)
  }

  /** Register, then log in with the same credentials: the login returns the
      new user, whenever the verifier accepts a password against its own hash. */
  lemma RegisterThenLogin(s: Store, obj: UserCreate, hash: string -> string, verify: (string, string) -> bool)
    requires verify(obj.password, hash(obj.password))
    requires CreateUser(s, obj, hash).Ok?
    ensures AuthenticateUser(CreateUser(s, obj, hash).value.0, obj.email, obj.password, verify)
         == Ok(CreateUser(s, obj, hash).value.1)
  {
    CreateThenAuthenticate(s.users, obj, hash, verify);
  }
}

=== FILE: wrappers.dfy ===
/** Optional values and results with an error channel, used throughout the model
    in place of Python's `None` and of raised `HTTPException`s. */
module Wrappers {

  /** A value that may be missing (a query's `.first()` with no match). */
  datatype Option<+T> = None | Some(value: T) {

    /** The wrapped value, or `default` when there is none. */
    function GetOr(default: T): T
    {
      match this
      case Some(v) => v
      case None => default
    }
  }

  /** The outcome of a service operation: a value, or the error it raised. */
  datatype Result<+T, +E> = Ok(value: T) | Err(error: E)
}
